=== FILE: README.md ===
# websimulator core, modelled in Dafny

This project models the coordination core of the websimulator playground.
The playground turns a user's description into an HTML/CSS/JS page. It asks
an image-search service for pictures and a language model for code. It also
keeps a version history of the pages it produced.

The modelled parts are:

- **VersionManager**: an append-only history with a current-version pointer.
- **CacheService**: a map with lazy, age-based expiry.
- **RateLimiter**: a sliding-window request counter.
- **BaseAgent**: the prompt tables, prompt selection by type, and a message log capped at 100 entries.
- **ImageAgent**: the query it sends, how hits become processed images, alt-text tidying and the layout name it suggests.
- **LayoutAgent**: how the layout type is chosen and how its CSS is assembled.
- **CodeGenAgent**: how its prompt is assembled and how the model's reply is wrapped.
- **OpenRouterService**:
  - choice of system prompt;
  - prompt enhancement;
  - extraction of fenced code blocks from a reply;
  - line-tidying of the extracted code.
- **BrowserAgent**: URL-or-prompt classification and keyword flags.
- **AgentOrchestrator**: the image → layout → code pipeline and CSS merging.

Every mutable object becomes an immutable value threaded through the
operations: `History`, `Cache`, `Limiter`, `Agent` and `Orchestrator`.

A JavaScript `throw new Error(m)` becomes `Err(m)` of `Results.Result`.

The outside world enters as parameters:

- **Clock:** `Date.now()` is an integer `now`. One value is used per call; the orchestrator passes the same `now` to all three stages.
- **Image search:** the HTTP request, status check and JSON decoding become `ImageAgent.Search`. It maps the query's name/value pairs to a response or an error.
- **Language model:** the chat-completion call becomes `OpenRouter.Chat`. It maps the system prompt and user prompt to the reply text or an error.
- **JSON serialisation:** `JSON.stringify` of the requirements object and of the image list becomes `CodeAgent.Serializers`.
- **Environment:** `NEXT_PUBLIC_SYSTEM_PROMPT_GENERAL` is an `Option<string>` parameter (`general`). The Pixabay key is an `Option<string>` given to `ImageAgent.New`. The other environment overrides are replaced by the defaults in `src/config/constants.ts`.

JavaScript truthiness is written out:

- A string is truthy when it is present and non-empty (`Results.Truthy`).
- `n || d` on an optional number gives `d` when `n` is absent or 0 (`Results.NumOr`).
- A destructuring default (`{maxWidth = 1200}`) applies only when the value is absent (`Option.GetOr`).

Supporting modules:

- `Text`: white space, `trim`, `toLowerCase`, `includes`, `split` and `join`.
- `Decimal`: `String(n)` for integers, and parsing it back.
- `Config`: the constants and prompt tables.

## Behaviour worth noting (the model follows the code)

- **LayoutAgent's CSS block.** The block is picked by a `switch` on the raw requested `type` (`src/agents/LayoutAgent.ts:110-122`), not on the resolved layout type. An empty type whose elements contain a hero resolves to 'landing' but gets the standard block (`LayoutAgent.BlockIgnoresInferredType`).
- **LayoutAgent's responsive rule.** It is emitted only when `responsive` holds; the default is true (`src/agents/LayoutAgent.ts:99-107`).
- **Image layout names reaching LayoutAgent.** The orchestrator passes the image agent's suggestion ('hero', 'single', 'grid-small', 'grid-medium', 'gallery') as the raw layout type. None of these is 'landing', 'dashboard' or 'grid', so a page laid out from its images always gets the standard block, never the grid rules (`AgentOrchestrator.SuggestedLayoutGetsStandardBlock`).
- **OpenRouter's system-prompt table.** It is indexed by the prompt type directly. Types without a key of their own fall back to the table's INITIAL text, not to the general prompt. ELEMENT_EDIT and STYLE_EDIT therefore get INITIAL there, while BaseAgent maps them to EDIT (`OpenRouter.EditTypesDiverge`).
- **RateLimiter's error message.** RateLimiter throws its own literal message. The configured rate-limit error text is never read by the core, so the model does not carry it.
- **Partial results of a failed request.** When a stage fails, the agents that already ran keep their log entries.

## Model

| member | source | states |
|---|---|---|
| VersionControl.Empty | src/utils/versionControl.ts:8-10 | A new manager has no versions and pointer -1, which meets the history invariant (ids equal indices; pointer is -1 exactly when empty, else a valid index). |
| VersionControl.AddVersion | src/utils/versionControl.ts:12-20 | Appends exactly one version and leaves every earlier version unchanged. The new version's id is the old length, its time is `now`, and its description defaults to 'Changes made'. The pointer moves to the new version. The invariant is preserved. |
| VersionControl.Find | src/utils/versionControl.ts:23 | `find` by id: the first index holding that id; none exactly when no version has it. |
| VersionControl.Restore | src/utils/versionControl.ts:22-29 | Succeeds exactly when some version has the id. On success it returns the content of the first such version and moves the pointer to the id, changing nothing else. Otherwise it returns null and leaves the history unchanged. |
| VersionControl.RestoreValid | src/utils/versionControl.ts:22-29 | On a valid history, restore succeeds exactly for 0 <= id < length and returns that version's content. It never alters the version list and keeps the invariant. |
| VersionControl.IdsIncreasing | src/utils/versionControl.ts:12-20 | In a valid history, ids strictly increase along the list (never reused). |
| VersionControl.ReplayValid | src/utils/versionControl.ts:8-29 | Any sequence of adds and restores, started from a new manager, yields a history that meets the invariant. |
| CacheService.New | src/services/cache/CacheService.ts:7-10 | Starts empty; the maximum age defaults to 3600000 ms when none is given. |
| CacheService.Set | src/services/cache/CacheService.ts:12-17 | Stores the value with time `now` under the key, overwriting any old entry. Other keys and the maximum age are unchanged. |
| CacheService.Get | src/services/cache/CacheService.ts:19-29 | A missing key gives null with the cache unchanged. An entry at most `maxAge` old gives its value with the cache unchanged. An older entry gives null and removes exactly that key. |
| CacheService.Clear | src/services/cache/CacheService.ts:31-33 | Removes every entry and keeps the maximum age. |
| CacheService.SetThenGet | src/services/cache/CacheService.ts:12-29 | A value set at `t` is returned by any read at most `maxAge` later. |
| CacheService.ExpiryBoundary | src/services/cache/CacheService.ts:23 | The boundary is strict: a read exactly `maxAge` after the set still hits, and one millisecond later it misses. |
| CacheService.ExpiredStaysGone | src/services/cache/CacheService.ts:23-26 | Once a read finds an entry expired, every later read of that key misses. |
| CacheService.SetOverwrites | src/services/cache/CacheService.ts:12-17 | Setting a key twice equals setting it once with the second value and time. |
| RateLimiter.New | src/services/ratelimiter/RateLimiter.ts:8-12 | No recorded requests, at most 50 per 60000 ms window. |
| RateLimiter.Recent | src/services/ratelimiter/RateLimiter.ts:19-21 | The filter keeps exactly the timestamps less than a window old, each as often as it was stored, in their original order, as a subsequence of the stored list. |
| RateLimiter.CheckLimit | src/services/ratelimiter/RateLimiter.ts:14-30 | Rejects with 'Rate limit exceeded. Please wait before trying again.' exactly when the recent requests already reach the maximum. On acceptance it stores the recent timestamps plus `now` for that key only, and the stored list never exceeds the maximum. |
| RateLimiter.CanMakeRequest | src/services/ratelimiter/RateLimiter.ts:32-35 | The check on the 'default' key: it rejects, with the rate-limit message, exactly when the recent 'default' requests already reach the maximum. On acceptance only the 'default' entry changes, to the recent timestamps plus `now`, holding at most the maximum; the limits stay the same. |
| RateLimiter.RecentSorted | src/services/ratelimiter/RateLimiter.ts:19-21 | Filtering a time-ordered list keeps it time-ordered. |
| RateLimiter.CheckLimitKeepsSorted | src/services/ratelimiter/RateLimiter.ts:14-30 | If a key's timestamps are ordered and none is after `now`, they are still ordered after an accepted check. |
| RateLimiter.FullWindowRejects | src/services/ratelimiter/RateLimiter.ts:14-25 | With at least the maximum number of requests inside the window, the next call is rejected. |
| RateLimiter.ElapsedWindowAccepts | src/services/ratelimiter/RateLimiter.ts:14-30 | Once every stored request is a full window old, a call succeeds and leaves only `now` stored for the key. |
| RateLimiter.RecentKeepsAll | src/services/ratelimiter/RateLimiter.ts:19-21 | When every timestamp is inside the window, the filter changes nothing. |
| BaseAgent.SystemPromptsFor | src/agents/BaseAgent.ts:57-73 | 'codeGen', 'layout' and 'image' get the CODE, LAYOUT and IMAGE system tables. Any other name gets GENERAL (or '') in all three slots. |
| BaseAgent.AgentPromptsFor | src/agents/BaseAgent.ts:75-91 | The three agent names get their agent tables. Any other name gets exactly INITIAL, EDIT and REVISION, all empty. |
| BaseAgent.NewAgent | src/agents/BaseAgent.ts:34-39 | A new agent has its name, an empty log and the prompt tables chosen by its name. |
| BaseAgent.LogMessage | src/agents/BaseAgent.ts:43-55 | Appends an entry with the time, agent name and message type, then keeps only the newest 100 entries. The new entry is last. The name and prompts are unchanged. |
| BaseAgent.LogMessageDrops | src/agents/BaseAgent.ts:43-55 | Below 100 entries the log grows by the new entry. At 100 it drops exactly the oldest entry. |
| BaseAgent.ClearMessageHistory | src/agents/BaseAgent.ts:126-128 | Empties the log and changes nothing else. |
| BaseAgent.SystemPromptForType | src/agents/BaseAgent.ts:93-109 | INITIAL, COMPONENT and GALLERY select INITIAL. EDIT, ELEMENT_EDIT and STYLE_EDIT select EDIT. REVISION selects REVISION. |
| BaseAgent.AgentPromptForType | src/agents/BaseAgent.ts:111-113 | The table's text for the type when it is present and non-empty, else the INITIAL text; always one of the table's texts. |
| BaseAgent.ConstructFullPrompt | src/agents/BaseAgent.ts:115-120 | The prompt is the system text, a blank line, the agent text, "\n\nUser Request: ", then the user's text, each at its stated position. |
| BaseAgent.CodeGenInitialPrompt | src/agents/BaseAgent.ts:115-120 | The code agent's INITIAL prompt is the CODE system INITIAL text followed by the CODE agent INITIAL text and the request. |
| BaseAgent.UntabledAgentPrompt | src/agents/BaseAgent.ts:115-120 | An agent without tables builds the same prompt for every type: GENERAL, an empty agent text, the request. |
| BrowserAgent.New | src/agents/BrowserAgent.ts:4-6 | The browser agent has no agent prompt table of its own, so its INITIAL agent text is empty. |
| BrowserAgent.ExtractRequirements | src/agents/BrowserAgent.ts:23-30 | hasImages, hasInteractivity and hasAnimation hold exactly when 'image', 'button' and 'animate' occur in the lower-cased input. The layout is 'standard'. |
| BrowserAgent.DetectImageNeeds | src/agents/BrowserAgent.ts:32-35 | Holds exactly when one of 'image', 'picture', 'photo' or 'gallery' occurs in the lower-cased input. |
| BrowserAgent.Process | src/agents/BrowserAgent.ts:8-21 | Logs the input. The kind is 'url' exactly when the input starts with "http" (case-sensitive), else 'prompt'. The content is the input unchanged, with the requirements, image need and time attached. |
| BrowserAgent.ImagesImplyNeed | src/agents/BrowserAgent.ts:23-35 | An input flagged as having images is always flagged as needing images. |
| ImageAgent.New | src/agents/ImageAgent.ts:69-74 | The agent is named 'image', its key defaults to '' and it asks for at most 5 images. |
| ImageAgent.SearchQuery | src/agents/ImageAgent.ts:104-118 | The query is key, q, per_page, image_type, orientation, min_width, min_height and safesearch=true, in that order, plus category exactly when one is given. per_page is the decimal text of the count (or the maximum when absent or 0), and min_width and min_height are the decimal text of the minimum sizes (or 0); each parses back to its number. The types default to 'all'. |
| ImageAgent.ProcessImages | src/agents/ImageAgent.ts:129-143 | No hit list gives no images. Otherwise there is one image per hit, in order, with the hit's URL and size, tidied tags as alt text, source 'Pixabay', its licence, and 'Photo by <user>'. |
| ImageAgent.GenerateAltText | src/agents/ImageAgent.ts:145-152 | The alt text is empty exactly when no tag is non-blank after trimming. Otherwise splitting it at commas gives back those trimmed tags in order, each after the first behind the one space of the ', ' glue (completed by `ImageAgent.AltTextTags` and `ImageAgent.AltTextIdempotent`). |
| ImageAgent.AltTextTags | src/agents/ImageAgent.ts:145-152 | The alt text is empty exactly when no non-blank tag remains. Otherwise splitting it at commas gives back the trimmed non-blank tags, in order, each after the first preceded by one space. |
| ImageAgent.AltTextIdempotent | src/agents/ImageAgent.ts:145-152 | Tidying tidied alt text changes nothing. |
| ImageAgent.SuggestImageLayout | src/agents/ImageAgent.ts:154-175 | Each name holds exactly under its condition: 'default' for no images; 'hero' for one image wider than 1.5 times its height; 'single' for one other image; 'grid-small' for 2-3 images; 'grid-medium' for 4-6; 'gallery' for 7 or more. |
| ImageAgent.SuggestionNonEmpty | src/agents/ImageAgent.ts:154-175 | With at least one image the suggestion is neither empty nor 'default'. |
| ImageAgent.Process | src/agents/ImageAgent.ts:76-102 | Logs the search. With no key it fails with 'API key not found in environment variables'. A failed search passes its error through unchanged. Otherwise it returns the processed hits, with the query, the time and totalHits (0 when absent). |
| ImageAgent.NoKeyNoSearch | src/agents/ImageAgent.ts:82-87 | Without a key the search service is never consulted: any two services give the same outcome. |
| LayoutAgent.New | src/agents/LayoutAgent.ts:31-34 | The agent is named 'layout' and carries the LAYOUT tables. COMPONENT has a text of its own; element edits fall back to the INITIAL text. |
| LayoutAgent.DetermineLayoutType | src/agents/LayoutAgent.ts:62-85 | A non-empty type wins. Otherwise 'hero' gives 'landing', then 'sidebar' gives 'dashboard', then 'gallery' gives 'grid', else 'standard'. An empty type with no element list fails. |
| LayoutAgent.BlockFor | src/agents/LayoutAgent.ts:110-122 | 'landing', 'dashboard' and 'grid' each select their own block, exactly. Every other raw type, the empty one included, selects the standard block. |
| LayoutAgent.GenerateLayoutCSS | src/agents/LayoutAgent.ts:87-125 | The CSS is the container rule first, then the small-screen rule exactly when responsive (default true), then the block for the raw type, last. The width (default 1200) and spacing (default '1rem') fill in the rules. |
| LayoutAgent.Process | src/agents/LayoutAgent.ts:36-60 | Logs the call. It fails with the generic generation error exactly when the type cannot be determined. Otherwise it returns the determined type as the layout and in the metadata, the generated CSS, the time, and responsive defaulting to true. |
| LayoutAgent.BlockIgnoresInferredType | src/agents/LayoutAgent.ts:62-122 | An empty type with a hero element resolves to 'landing' yet selects the standard block. |
| LayoutAgent.ImageSuggestionsGetStandardBlock | src/agents/LayoutAgent.ts:62-122 | Each name the image agent can suggest is kept as the layout type and selects the standard block. |
| OpenRouter.TableEntry | src/services/api/OpenRouter.ts:66-70 | `table[promptType] \|\| table.INITIAL`: EDIT and REVISION read their own text when it is non-empty and INITIAL when it is empty; every other type reads INITIAL. |
| OpenRouter.BaseSystemPrompt | src/services/api/OpenRouter.ts:60-73 | Element type 'code', 'layout' or 'image' selects that table's entry for the prompt type (default INITIAL). Any other element type selects GENERAL or ''. |
| OpenRouter.SystemPrompt | src/services/api/OpenRouter.ts:60-92 | The system prompt is the selected text, then the key-requirements block, then the style-guide line exactly when a style is given. |
| OpenRouter.EditTypesDiverge | src/services/api/OpenRouter.ts:66-70 | For ELEMENT_EDIT and STYLE_EDIT, BaseAgent selects the EDIT text while this service selects INITIAL. |
| OpenRouter.RequestPart | src/services/api/OpenRouter.ts:94-99 | Without a context the prompt is kept. With one, the text is 'Context: <context>\n\nRequest: ' followed by the prompt. |
| OpenRouter.ConstructPrompt | src/services/api/OpenRouter.ts:94-121 | The request part, then the existing content exactly when given, then the fixed instructions, always last. |
| OpenRouter.ExtractBlock | src/services/api/OpenRouter.ts:127-129 | The lazy regex match: the text between the leftmost opening fence for the language and the first closing fence after it. It is none exactly when no opening fence is followed by a closing one. |
| OpenRouter.FormatCode | src/services/api/OpenRouter.ts:144-151 | The formatted code is empty exactly when no line is non-blank. Otherwise splitting it at newlines gives back exactly the trimmed non-blank lines, in order (completed by `OpenRouter.FormatCodeLines` and `OpenRouter.FormatCodeIdempotent`). |
| OpenRouter.FormatCodeLines | src/services/api/OpenRouter.ts:144-151 | The formatted code is empty exactly when every line is blank. Otherwise splitting it at newlines gives back exactly the trimmed non-blank lines, in order. |
| OpenRouter.FormatCodeIdempotent | src/services/api/OpenRouter.ts:144-151 | Formatting formatted code changes nothing. |
| OpenRouter.BlockText | src/services/api/OpenRouter.ts:132-134 | A missing block gives ''. A found block is trimmed, then formatted. |
| OpenRouter.ParseResponse | src/services/api/OpenRouter.ts:123-142 | html, css and js are the formatted html, css and javascript blocks; raw is the reply unchanged. |
| OpenRouter.GenerateCode | src/services/api/OpenRouter.ts:20-58 | Exactly one model call with the assembled system and user prompts. Its error is passed through unchanged; its reply is parsed. |
| CodeAgent.New | src/agents/CodeAgent.ts:33-35 | The agent is named 'codeGen' and carries the CODE tables. ELEMENT_EDIT has a text of its own; REVISION falls back to the INITIAL text. |
| CodeAgent.DimensionsRoundTrip | src/agents/CodeAgent.ts:76 | The 'WxH' text of any width and height parses back to that width and height. |
| CodeAgent.ImageInfos | src/agents/CodeAgent.ts:73-77 | One summary per image, in order, with its URL, its alt text and the dimensions '<width>x<height>' in decimal, which parse back to its size. |
| CodeAgent.RequirementsSection | src/agents/CodeAgent.ts:68-70 | Present exactly when requirements are given. It is the label followed by their serialisation. |
| CodeAgent.ImagesSection | src/agents/CodeAgent.ts:72-84 | Empty exactly when no image was processed. Otherwise it is the serialised list, followed by the layout-style line exactly when a non-empty layout is given. |
| CodeAgent.ConstructPrompt | src/agents/CodeAgent.ts:65-87 | The INITIAL full prompt for the content, then the requirements section, then the images section. |
| CodeAgent.Process | src/agents/CodeAgent.ts:37-63 | Logs the call. Any model failure becomes the generic generation error. Otherwise it returns the model's html, css and js unchanged, with the time, the processed-image count (0 when none) and the images' layout ('default' when none). |
| AgentOrchestrator.New | src/agents/AgentOrchestrator.ts:38-42 | One code, one layout and one image agent, each with an empty log. |
| AgentOrchestrator.SearchFor | src/agents/AgentOrchestrator.ts:49-53 | The search carries the request's query, count and type and nothing else. |
| AgentOrchestrator.ImageStage | src/agents/AgentOrchestrator.ts:46-62 | Only a non-empty query starts a search. A failed search fails the stage. Found images come with their suggested layout, which is never empty. An empty result gives no image data. |
| AgentOrchestrator.DetermineLayoutElements | src/agents/AgentOrchestrator.ts:103-127 | One to four elements, strictly in the order image, header, footer, main-content. The image element is present exactly when there are processed images: 'single-image' for one, else 'gallery'. Header and footer are present exactly when the content mentions them in any case, and carry no content. main-content is always last. |
| AgentOrchestrator.LayoutRequest | src/agents/AgentOrchestrator.ts:67-73 | The type is never empty: the requested layout, else the suggested one. The elements are as above and the rule is responsive. |
| AgentOrchestrator.LayoutStage | src/agents/AgentOrchestrator.ts:64-74 | The layout agent runs exactly when a layout is requested or suggested, and then never fails. The layout it reports is the type it was given. Otherwise its log is untouched. |
| AgentOrchestrator.CombineCSS | src/agents/AgentOrchestrator.ts:129-139 | Missing or empty layout CSS leaves the generated CSS alone. Otherwise the layout CSS comes first and the generated CSS after it, each under its comment heading. |
| AgentOrchestrator.CodeState | src/agents/AgentOrchestrator.ts:77-84 | The code stage always gets a requirements object. It holds the request's image and style entries, with the layout replaced by the layout stage's result. |
| AgentOrchestrator.Generate | src/agents/AgentOrchestrator.ts:44-101 | Image, layout and code stages run in order, and any failure becomes the generic generation error. A failed image stage stops the later agents. On success it returns the code agent's html and js, its CSS merged with the layout CSS, and a non-empty layout name (default 'standard'). |
| AgentOrchestrator.NoQueryNoSearch | src/agents/AgentOrchestrator.ts:48 | Without a non-empty query the search service is never consulted and the image agent logs nothing. |
| AgentOrchestrator.NoKeyFailsImageRequests | src/agents/AgentOrchestrator.ts:44-101 | Without an image key, every request that asks for images fails with the generic error before the layout and code agents run. |
| AgentOrchestrator.NoLayoutStage | src/agents/AgentOrchestrator.ts:64-96 | With neither a layout nor an image query, the layout agent does not run. The CSS is the code agent's own and the layout reported is 'standard'. |
| AgentOrchestrator.RequestedLayoutWins | src/agents/AgentOrchestrator.ts:66-73 | A requested layout names the result and selects the CSS block by its raw name, whatever the images suggest. |
| AgentOrchestrator.SuggestedLayoutGetsStandardBlock | src/agents/AgentOrchestrator.ts:55-73 | With no layout requested, the images' suggestion becomes the layout name, and the CSS always ends with the standard block. |
| AgentOrchestrator.RequirementsAlwaysSent | src/agents/AgentOrchestrator.ts:77-84 | The code agent's prompt always carries a requirements section. |
| Text.Trim | src/agents/ImageAgent.ts:149 | `trim()` gives a string that neither starts nor ends with white space and is no longer than the input. |
| Text.TrimInfix | src/agents/ImageAgent.ts:149 | The input is white space, then the trimmed text, then white space. |
| Text.TrimPadding | src/agents/ImageAgent.ts:149 | Trimming a trimmed string padded with white space on both sides gives it back, so the trimmed text is unique. |
| Text.IndexOf | src/agents/BrowserAgent.ts:25 | The first occurrence at or after the start position; none exactly when there is none. |
| Text.ContainsIff | src/agents/BrowserAgent.ts:25 | `includes` holds exactly when the substring occurs at some position. |
| Text.Split | src/services/api/OpenRouter.ts:147 | `split` on one character gives at least one piece. No piece contains the separator, and joining the pieces with it gives back the input. |
| Text.TidySplit | src/services/api/OpenRouter.ts:146-150 | Splitting the result of split/trim/filter/join gives back exactly the kept pieces, padded as joined: nothing lost, merged or reordered. |
| Text.TidyIdempotent | src/services/api/OpenRouter.ts:146-150 | Split/trim/filter/join with a white-space pad is idempotent. |
| Decimal.NatToString | src/agents/ImageAgent.ts:108 | `String(n)` for 0 <= n < 10^21: non-empty, all digits, no leading zero. |
| Decimal.IntToString | src/agents/ImageAgent.ts:108 | `String(n)` for integers of magnitude below 10^21: non-empty; only digits for n >= 0, a minus sign then digits below 0. With `Decimal.IntRoundTrip` it reads back as n. |
| Decimal.IntRoundTrip | src/agents/ImageAgent.ts:108 | `String(n)` of any integer parses back to n. |

## Left out

- HTTP, `fetch` and JSON decoding are left out. The Pixabay and OpenRouter calls, their headers, model name, temperature and status checks are the `Search` and `Chat` parameters. A non-2xx status is an `Err` from them.
- `JSON.stringify` is left out. It is the `Serializers` parameter, so the exact text of the requirements and image sections is not modelled beyond their labels.
- `URLSearchParams` encoding is left out. The query is the list of name/value pairs before encoding.
- Logged message bodies are abbreviated to a type and one string: ImageAgent logs the query, LayoutAgent the requested type, CodeGenAgent the content. The `hasImages` flag and the full parameter objects are not kept.
- Environment overrides are left out. Except for the GENERAL system prompt and the image key, the model uses the fallback values of `src/config/constants.ts`: MAX_IMAGES, CACHE.DURATION and the error-message overrides.
- `getOptimizedImageUrl` (`src/agents/ImageAgent.ts:177` onward) is left out. It only rewrites URL query parameters through the URL API.
- `getCurrentVersion`, `getVersions` and `getMessageHistory` are left out. They are plain field reads and are visible as `History.current`, `History.versions` and `Agent.log`.
- The UI components, the toast and the sandboxed preview are left out; they are presentation only.
- Asynchrony is left out. Each `await` becomes sequential evaluation, and the event loop and cancellation are not modelled.
- White space for `trim` is the ASCII set only (space, tab, line feed, carriage return, vertical tab, form feed). JavaScript also trims Unicode spaces. `toLowerCase` folds only A-Z.
- ImageAgent.SuggestImageLayout: widths and heights are integers, so `width > height * 1.5` is stated exactly as `2 * width > 3 * height`. Fractional sizes from a malformed response are not modelled.
- AgentOrchestrator.Generate: uses one `now` for all three stages, so all stamps coincide. In the source a full run reads the clock six times: each agent once for its log entry and once for its result.
- ImageAgent.Process: the log entry and the result share one `now`. In the source the result is stamped after the awaited search, so it can be later than the log entry.
- LayoutAgent.Process: the log entry and the result share one `now`. In the source they are two successive clock readings.
- CodeAgent.Process: the log entry and the result share one `now`. In the source the result is stamped after the awaited model call, so it can be later than the log entry.
- BrowserAgent.Process: the log entry and the result share one `now`. In the source they are two successive clock readings.
- OpenRouter.ExtractBlock: the regex `[\s\S]*?` is modelled as "up to the first closing fence". Regex engines and Unicode line terminators are not modelled.
- ImageAgent.SearchQuery: counts and sizes are integers. Fractional minimum sizes, which `String(...)` would print with a decimal point, are not modelled. A `NaN` count or size needs no extra case: it is falsy, so `||` falls back to the default exactly as for 0.
- LayoutAgent.GenerateLayoutCSS: the maximum width is an integer. A fractional `maxWidth` would print with a decimal point in the rule.
- CodeAgent.ImageInfos: image widths and heights are integers. Fractional sizes would print with a decimal point in the dimensions.
- CacheService.Get: `Date.now()` readings and ages are unbounded integers, not IEEE doubles. Precision loss beyond 2^53 milliseconds is not modelled.
- RateLimiter.CheckLimit: timestamps and the window arithmetic are unbounded integers, not IEEE doubles. Precision loss beyond 2^53 milliseconds is not modelled.
- Decimal.IntToString: numbers of magnitude 10^21 and above, which JavaScript prints in exponent form (`String(1e21)` is "1e+21"), and integers beyond 2^53, which a JavaScript number cannot hold exactly, are not modelled; the model prints every integer in plain digits. This applies to every decimal text in the model: per_page, min_width and min_height in ImageAgent.SearchQuery, max-width in LayoutAgent.GenerateLayoutCSS, and the dimensions in CodeAgent.ImageInfos.
- Decimal.NatToString: the same limit as Decimal.IntToString, for n >= 0.

=== FILE: base_agent.dfy ===
/** What every agent shares: a name, a bounded log of the messages it has
    handled, and the system- and agent-prompt tables its name selects. */
module BaseAgent {
  import opened Results
  import opened Config

  /** A message handed to `logMessage`: its `type` and the rest of it,
      abstracted to a summary string. */
  datatype Message = Message(kind: string, body: string)

  datatype LogEntry = LogEntry(timestamp: int, agent: string, kind: string, content: Message)

  datatype Agent = Agent(name: string, log: seq<LogEntry>, systemPrompt: SystemPrompts, agentPrompt: AgentPrompts)

  const LogCapacity := 100

  /** `prompts.GENERAL || ''`. */
  function GeneralOrEmpty(general: Option<string>): string {
    OrElse(general, "")
  }

  /** `getSystemPrompt()`: the CODE, LAYOUT or IMAGE table for the names
      'codeGen', 'layout' and 'image'; for any other name, GENERAL (or '')
      in all three slots. */
  function SystemPromptsFor(name: string, general: Option<string>): (sp: SystemPrompts)
    ensures name == "codeGen" ==> sp == SystemCode
    ensures name == "layout" ==> sp == SystemLayout
    ensures name == "image" ==> sp == SystemImage
    ensures name !in {"codeGen", "layout", "image"} ==>
      sp.initial == sp.edit == sp.revision == GeneralOrEmpty(general)
  {
    match name
    case "codeGen" => SystemCode
    case "layout" => SystemLayout
    case "image" => SystemImage
    case _ =>
      var g := GeneralOrEmpty(general);
      SystemPrompts(g, g, g)
  }

  /** `getAgentPrompt()`: the CODE, LAYOUT or IMAGE agent table for those
      names; for any other name, empty INITIAL, EDIT and REVISION. */
  function AgentPromptsFor(name: string): (ap: AgentPrompts)
    ensures name == "codeGen" ==> ap == AgentCode
    ensures name == "layout" ==> ap == AgentLayout
    ensures name == "image" ==> ap == AgentImage
    ensures name !in {"codeGen", "layout", "image"} ==>
      ap.Keys == {Initial, Edit, Revision} && forall t :: t in ap ==> ap[t] == ""
  {
    match name
    case "codeGen" => AgentCode
    case "layout" => AgentLayout
    case "image" => AgentImage
    case _ => map[Initial := "", Edit := "", Revision := ""]
  }

  /** The constructor: an empty log and the tables the name selects. */
  function NewAgent(name: string, general: Option<string>): (a: Agent)
    ensures a.name == name && a.log == []
    ensures a.systemPrompt == SystemPromptsFor(name, general)
    ensures a.agentPrompt == AgentPromptsFor(name)
  {
    Agent(name, [], SystemPromptsFor(name, general), AgentPromptsFor(name))
  }

  /** `logMessage(message)` at `now`: the entry goes last, stamped with the
      agent's name and the message's type, and only the newest 100 entries
      are kept, in their order. */
  function LogMessage(a: Agent, m: Message, now: int): (a': Agent)
    ensures |a'.log| == if |a.log| + 1 <= LogCapacity then |a.log| + 1 else LogCapacity
    ensures a'.log == (a.log + [LogEntry(now, a.name, m.kind, m)])[|a.log| + 1 - |a'.log|..]
    ensures a'.log[|a'.log| - 1] == LogEntry(now, a.name, m.kind, m)
    ensures a'.name == a.name && a'.systemPrompt == a.systemPrompt && a'.agentPrompt == a.agentPrompt
  {
    var log := a.log + [LogEntry(now, a.name, m.kind, m)];
    if |log| > LogCapacity then a.(log := log[|log| - LogCapacity..]) else a.(log := log)
  }

  /** Below capacity nothing is dropped; at capacity exactly the oldest
      entry is. */
  lemma LogMessageDrops(a: Agent, m: Message, now: int)
    requires |a.log| <= LogCapacity
    ensures |a.log| < LogCapacity ==> LogMessage(a, m, now).log == a.log + [LogEntry(now, a.name, m.kind, m)]
    ensures |a.log| == LogCapacity ==> LogMessage(a, m, now).log == a.log[1..] + [LogEntry(now, a.name, m.kind, m)]
  {
    var e := LogEntry(now, a.name, m.kind, m);
    if |a.log| == LogCapacity {
      assert (a.log + [e])[1..] == a.log[1..] + [e];
    }
  }

  /** `clearMessageHistory()`: an empty log, nothing else changed. */
  function ClearMessageHistory(a: Agent): (a': Agent)
    ensures a'.log == [] && a'.name == a.name
    ensures a'.systemPrompt == a.systemPrompt && a'.agentPrompt == a.agentPrompt
  {
    a.(log := [])
  }

  /** The system-prompt slot a prompt type reads. */
  datatype Slot = InitialSlot | EditSlot | RevisionSlot

  function SlotText(sp: SystemPrompts, s: Slot): string {
    match s
    case InitialSlot => sp.initial
    case EditSlot => sp.edit
    case RevisionSlot => sp.revision
  }

  /** `getSystemPromptForType(type)`: INITIAL, COMPONENT and GALLERY read
      the INITIAL slot; EDIT, ELEMENT_EDIT and STYLE_EDIT the EDIT slot;
      REVISION the REVISION slot. */
  function SystemPromptForType(sp: SystemPrompts, t: PromptType): (r: string)
    ensures t in {Initial, Component, Gallery} ==> r == SlotText(sp, InitialSlot)
    ensures t in {Edit, ElementEdit, StyleEdit} ==> r == SlotText(sp, EditSlot)
    ensures t == Revision ==> r == SlotText(sp, RevisionSlot)
  {
    match t
    case Initial => sp.initial
    case Edit => sp.edit
    case ElementEdit => sp.edit
    case StyleEdit => sp.edit
    case Revision => sp.revision
    case Component => sp.initial
    case Gallery => sp.initial
  }

  /** `agentPrompt[type] || agentPrompt.INITIAL`: the entry for the type when
      present and non-empty, the INITIAL entry otherwise. */
  function AgentPromptForType(ap: AgentPrompts, t: PromptType): (r: string)
    ensures t in ap && ap[t] != "" ==> r == ap[t]
    ensures !(t in ap && ap[t] != "") ==> r == ap[Initial]
    ensures r in ap.Values
  {
    if t in ap && ap[t] != "" then ap[t] else ap[Initial]
  }

  const UserRequestLabel := "\n\nUser Request: "

  /** `constructFullPrompt(userPrompt, type)`: the system prompt for the
      type, a blank line, the agent prompt for the type, a blank line, then
      "User Request: " and the user's text. */
  function ConstructFullPrompt(a: Agent, userPrompt: string, t: PromptType): (r: string)
    ensures var sys := SystemPromptForType(a.systemPrompt, t);
            var ag := AgentPromptForType(a.agentPrompt, t);
            && |r| == |sys| + 2 + |ag| + |UserRequestLabel| + |userPrompt|
            && r[..|sys|] == sys
            && r[|sys|..|sys| + 2] == "\n\n"
            && r[|sys| + 2..|sys| + 2 + |ag|] == ag
            && r[|r| - |userPrompt| - |UserRequestLabel|..|r| - |userPrompt|] == UserRequestLabel
            && r[|r| - |userPrompt|..] == userPrompt
  {
    SystemPromptForType(a.systemPrompt, t) + "\n\n" + AgentPromptForType(a.agentPrompt, t)
      + UserRequestLabel + userPrompt
  }

  /** The code-generation agent's INITIAL prompt carries the CODE tables' INITIAL texts. */
  lemma CodeGenInitialPrompt(general: Option<string>, userPrompt: string)
    ensures ConstructFullPrompt(NewAgent("codeGen", general), userPrompt, Initial)
      == SystemCode.initial + "\n\n" + AgentCodeInitial + UserRequestLabel + userPrompt
  {
  }

  /** An agent without tables of its own (the browser agent) builds the same
      prompt for every type: GENERAL, an empty agent prompt, the request. */
  lemma UntabledAgentPrompt(name: string, general: Option<string>, userPrompt: string, t: PromptType)
    requires name !in {"codeGen", "layout", "image"}
    ensures ConstructFullPrompt(NewAgent(name, general), userPrompt, t)
      == GeneralOrEmpty(general) + "\n\n" + UserRequestLabel + userPrompt
  {
    var a := NewAgent(name, general);
    assert AgentPromptForType(a.agentPrompt, t) == "";
  }
}

=== FILE: browser_agent.dfy ===
/** The browser agent: classifies what the user typed into the address bar
    as a URL or a prompt and flags a few features by keyword. */
module BrowserAgent {
  import opened Results
  import opened Text
  import opened BaseAgent

  datatype Requirements = Requirements(hasImages: bool, hasInteractivity: bool, hasAnimation: bool, layout: string)

  datatype BrowserResult = BrowserResult(
    kind: string, content: string, requirements: Requirements, needsImages: bool, timestamp: int)

  const ImageTerms: seq<string> := ["image", "picture", "photo", "gallery"]

  /** The constructor: a base agent named 'browser', which has no prompt tables of its own. */
  function New(general: Option<string>): (a: Agent)
    ensures a == NewAgent("browser", general)
    ensures a.agentPrompt[Config.Initial] == ""
  {
    NewAgent("browser", general)
  }

  /** `extractRequirements(input)`: case-insensitive searches for 'image',
      'button' and 'animate'; the layout is always 'standard'. */
  function ExtractRequirements(input: string): (r: Requirements)
    ensures r.hasImages <==> exists k :: Occurs(Lower(input), "image", k)
    ensures r.hasInteractivity <==> exists k :: Occurs(Lower(input), "button", k)
    ensures r.hasAnimation <==> exists k :: Occurs(Lower(input), "animate", k)
    ensures r.layout == "standard"
  {
    ContainsIff(Lower(input), "image");
    ContainsIff(Lower(input), "button");
    ContainsIff(Lower(input), "animate");
    Requirements(ContainsIgnoringCase(input, "image"), ContainsIgnoringCase(input, "button"),
                 ContainsIgnoringCase(input, "animate"), "standard")
  }

  /** `detectImageNeeds(input)`: some image term occurs in the lower-cased input. */
  function DetectImageNeeds(input: string): (r: bool)
    ensures r <==> exists t, k :: t in ImageTerms && Occurs(Lower(input), t, k)
  {
    var lower := Lower(input);
    ContainsIff(lower, "image");
    ContainsIff(lower, "picture");
    ContainsIff(lower, "photo");
    ContainsIff(lower, "gallery");
    ContainsIgnoringCase(input, "image") || ContainsIgnoringCase(input, "picture")
      || ContainsIgnoringCase(input, "photo") || ContainsIgnoringCase(input, "gallery")
  }

  /** `process(input)` at `now`, after logging it: 'url' exactly when the
      input starts with "http" (case matters), else 'prompt'; the input
      itself as content. */
  function Process(a: Agent, input: string, now: int): (r: (Agent, BrowserResult))
    ensures r.0 == LogMessage(a, Message("input", input), now)
    ensures r.1.kind == "url" <==> StartsWith(input, "http")
    ensures r.1.kind == "prompt" <==> !StartsWith(input, "http")
    ensures r.1.content == input && r.1.timestamp == now
    ensures r.1.requirements == ExtractRequirements(input)
    ensures r.1.needsImages == DetectImageNeeds(input)
  {
    var kind := if StartsWith(input, "http") then "url" else "prompt";
    (LogMessage(a, Message("input", input), now),
     BrowserResult(kind, input, ExtractRequirements(input), DetectImageNeeds(input), now))
  }

  /** Whatever flags images in the requirements also flags an image need. */
  lemma ImagesImplyNeed(input: string)
    ensures ExtractRequirements(input).hasImages ==> DetectImageNeeds(input)
  {
    if ExtractRequirements(input).hasImages {
      var k :| Occurs(Lower(input), "image", k);
      assert "image" in ImageTerms;
    }
  }
}

=== FILE: cache_service.dfy ===
/** The in-memory cache of generated documents keyed by prompt text: each
    entry carries the time it was stored, and an entry older than `maxAge`
    is dropped the next time it is read. */
module CacheService {
  import opened Results
  import Config

  datatype Entry<V> = Entry(value: V, timestamp: int)

  datatype Cache<V> = Cache(entries: map<string, Entry<V>>, maxAge: int)

  /** `new CacheService(maxAge)`: empty, with `maxAge` defaulting to one hour. */
  function New<V>(maxAge: Option<int>): (c: Cache<V>)
    ensures c.entries == map[]
    ensures maxAge.None? ==> c.maxAge == 3600000
    ensures maxAge.Some? ==> c.maxAge == maxAge.value
  {
    Cache(map[], maxAge.GetOr(Config.CacheDurationMs))
  }

  /** An entry read at `now` has expired when it is strictly older than `maxAge`. */
  predicate Expired(maxAge: int, e: Entry, now: int) {
    now - e.timestamp > maxAge
  }

  /** `set(key, value)` at `now`: the entry for `key` is replaced, stamped
      `now`; every other entry stays as it was. */
  function Set<V>(c: Cache<V>, key: string, value: V, now: int): (c': Cache<V>)
    ensures key in c'.entries && c'.entries[key] == Entry(value, now)
    ensures c'.entries.Keys == c.entries.Keys + {key}
    ensures forall k :: k in c.entries && k != key ==> c'.entries[k] == c.entries[k]
    ensures c'.maxAge == c.maxAge
  {
    c.(entries := c.entries[key := Entry(value, now)])
  }

  /** `get(key)` at `now`: a hit returns the stored value and leaves the
      cache as it was (no refresh); an absent key returns `None` and leaves
      the cache as it was; an expired entry returns `None` and is removed,
      and nothing else is. */
  function Get<V>(c: Cache<V>, key: string, now: int): (r: (Cache<V>, Option<V>))
    ensures key !in c.entries ==> r == (c, None)
    ensures key in c.entries && !Expired(c.maxAge, c.entries[key], now) ==>
      r == (c, Some(c.entries[key].value))
    ensures key in c.entries && Expired(c.maxAge, c.entries[key], now) ==>
      r.1 == None && r.0.maxAge == c.maxAge && r.0.entries.Keys == c.entries.Keys - {key}
      && forall k :: k in r.0.entries ==> r.0.entries[k] == c.entries[k]
  {
    if key !in c.entries then (c, None)
    else
      var e := c.entries[key];
      if Expired(c.maxAge, e, now) then (c.(entries := c.entries - {key}), None)
      else (c, Some(e.value))
  }

  /** `clear()`: no entries, same `maxAge`. */
  function Clear<V>(c: Cache<V>): (c': Cache<V>)
    ensures c'.entries == map[] && c'.maxAge == c.maxAge
  {
    c.(entries := map[])
  }

  /** A value set at `t` is read back at any `now` with `now - t <= maxAge`,
      in particular at `t` itself when `maxAge` is not negative. */
  lemma SetThenGet<V>(c: Cache<V>, key: string, value: V, t: int, now: int)
    requires now - t <= c.maxAge
    ensures Get(Set(c, key, value, t), key, now).1 == Some(value)
  {
  }

  /** The expiry boundary is strict: an entry exactly `maxAge` old is a hit,
      one a millisecond older is a miss. */
  lemma ExpiryBoundary<V>(c: Cache<V>, key: string, value: V, t: int)
    ensures Get(Set(c, key, value, t), key, t + c.maxAge).1 == Some(value)
    ensures Get(Set(c, key, value, t), key, t + c.maxAge + 1).1 == None
  {
  }

  /** Once a read finds an entry expired, every later read misses until
      the key is set again. */
  lemma ExpiredStaysGone<V>(c: Cache<V>, key: string, now: int, later: int)
    requires key in c.entries && Expired(c.maxAge, c.entries[key], now)
    ensures Get(Get(c, key, now).0, key, later).1 == None
  {
  }

  /** Setting a key twice keeps only the second value and timestamp. */
  lemma SetOverwrites<V>(c: Cache<V>, key: string, v1: V, t1: int, v2: V, t2: int)
    ensures Set(Set(c, key, v1, t1), key, v2, t2) == Set(c, key, v2, t2)
  {
  }
}

=== FILE: code_agent.dfy ===
/** The code-generation agent: builds one prompt from the user's text, the
    requirements and the image list, asks the model for code, and wraps the
    reply with metadata. JSON serialisation is a parameter. */
module CodeAgent {
  import opened Results
  import opened Text
  import opened Decimal
  import Config
  import opened BaseAgent
  import opened ImageAgent
  import OpenRouter

  datatype ImageData = ImageData(processed: Option<seq<ProcessedImage>>, layout: Option<string>)

  /** What the agent is asked to build; `R` is whatever requirements object
      the caller passes, seen only through its serialiser. */
  datatype GenerationState<R> = GenerationState(content: string, requirements: Option<R>, images: Option<ImageData>)

  /** The image summary put into the prompt. */
  datatype ImageInfo = ImageInfo(url: string, alt: string, dimensions: string)

  /** `JSON.stringify(value, null, 2)` for the two kinds of value serialised. */
  datatype Serializers<!R> = Serializers(requirements: R -> string, images: seq<ImageInfo> -> string)

  datatype GenerationMeta = GenerationMeta(generatedAt: int, imageCount: int, layout: string)

  datatype GenerationResult = GenerationResult(html: string, css: string, js: string, meta: GenerationMeta)

  /** The constructor: a base agent named 'codeGen'. Its agent table has
      element-edit texts but no REVISION text, which falls back to INITIAL. */
  function New(general: Option<string>): (a: Agent)
    ensures a == NewAgent("codeGen", general)
    ensures AgentPromptForType(a.agentPrompt, Config.ElementEdit) == Config.AgentCodeElementEdit
    ensures AgentPromptForType(a.agentPrompt, Config.Revision) == Config.AgentCodeInitial
  {
    NewAgent("codeGen", general)
  }

  /** `state.images?.processed`, empty when absent. */
  function Processed<R>(s: GenerationState<R>): seq<ProcessedImage> {
    if s.images.Some? && s.images.value.processed.Some? then s.images.value.processed.value else []
  }

  /** `state.images?.layout`. */
  function ImagesLayout<R>(s: GenerationState<R>): Option<string> {
    if s.images.Some? then s.images.value.layout else None
  }

  /** The "<width>x<height>" dimension string. */
  function Dimensions(width: int, height: int): string {
    IntToString(width) + "x" + IntToString(height)
  }

  /** Reads a dimension string back: the numbers before and after the
      first 'x'. */
  function ParseDimensions(d: string): Option<(int, int)> {
    match IndexOf(d, "x", 0)
    case None => None
    case Some(k) =>
      if IsIntText(d[..k]) && IsIntText(d[k + 1..]) then Some((ParseInt(d[..k]), ParseInt(d[k + 1..]))) else None
  }

  /** The dimension string carries both numbers recoverably. */
  lemma DimensionsRoundTrip(width: int, height: int)
    ensures ParseDimensions(Dimensions(width, height)) == Some((width, height))
  {
    var w := IntToString(width);
    var h := IntToString(height);
    var d := Dimensions(width, height);
    IntRoundTrip(width);
    IntRoundTrip(height);
    assert Occurs(d, "x", |w|) by { assert d[|w|..|w| + 1] == "x"; }
    forall k | 0 <= k < |w| ensures !Occurs(d, "x", k) {
      assert d[k] == w[k];
      assert w[k] == '-' || IsDigit(w[k]);
      assert d[k..k + 1] == [d[k]];
    }
    assert IndexOf(d, "x", 0) == Some(|w|);
    assert d[..|w|] == w;
    assert d[|w| + 1..] == h;
  }

  function InfoOf(img: ProcessedImage): ImageInfo {
    ImageInfo(img.url, img.alt, Dimensions(img.width, img.height))
  }

  /** The image list summarised for the prompt: one entry per image, in order. */
  function ImageInfos(images: seq<ProcessedImage>): (infos: seq<ImageInfo>)
    ensures |infos| == |images|
    ensures forall i :: 0 <= i < |images| ==>
      infos[i].url == images[i].url && infos[i].alt == images[i].alt &&
      infos[i].dimensions == IntToString(images[i].width) + "x" + IntToString(images[i].height) &&
      ParseDimensions(infos[i].dimensions) == Some((images[i].width, images[i].height))
  {
    var infos := seq(|images|, i requires 0 <= i < |images| => InfoOf(images[i]));
    forall i | 0 <= i < |images|
      ensures ParseDimensions(infos[i].dimensions) == Some((images[i].width, images[i].height))
    {
      DimensionsRoundTrip(images[i].width, images[i].height);
    }
    infos
  }

  const RequirementsLabel := "\n\nRequirements:\n"
  const ImagesLabel := "\n\nInclude these images:\n"
  const LayoutStyleLabel := "\n\nUse this layout style: "

  /** The requirements section: empty exactly when there are no requirements. */
  function RequirementsSection<R>(s: GenerationState<R>, ser: Serializers<R>): (r: string)
    ensures r == "" <==> s.requirements.None?
    ensures s.requirements.Some? ==> r == RequirementsLabel + ser.requirements(s.requirements.value)
  {
    if s.requirements.Some? then RequirementsLabel + ser.requirements(s.requirements.value) else ""
  }

  /** The images section: empty exactly when no image was processed;
      otherwise the serialised image list, followed by the layout-style line
      exactly when a non-empty layout is given. */
  function ImagesSection<R>(s: GenerationState<R>, ser: Serializers<R>): (r: string)
    ensures r == "" <==> |Processed(s)| == 0
    ensures |Processed(s)| > 0 ==>
      var list := ImagesLabel + ser.images(ImageInfos(Processed(s)));
      && StartsWith(r, list)
      && (Truthy(ImagesLayout(s)) ==> r[|list|..] == LayoutStyleLabel + ImagesLayout(s).value)
      && (!Truthy(ImagesLayout(s)) ==> r == list)
  {
    if |Processed(s)| == 0 then ""
    else
      var list := ImagesLabel + ser.images(ImageInfos(Processed(s)));
      var hint := if Truthy(ImagesLayout(s)) then LayoutStyleLabel + ImagesLayout(s).value else "";
      assert (list + hint)[..|list|] == list;
      list + hint
  }

  /** `constructPrompt(state)`: the agent's full INITIAL prompt for the
      content, then the requirements section, then the images section. */
  function ConstructPrompt<R>(a: Agent, s: GenerationState<R>, ser: Serializers<R>): (r: string)
    ensures var pre := ConstructFullPrompt(a, s.content, Config.Initial);
            var req := RequirementsSection(s, ser);
            var img := ImagesSection(s, ser);
            && |r| == |pre| + |req| + |img|
            && r[..|pre|] == pre
            && r[|pre|..|pre| + |req|] == req
            && r[|pre| + |req|..] == img
  {
    var pre := ConstructFullPrompt(a, s.content, Config.Initial);
    var req := RequirementsSection(s, ser);
    var img := ImagesSection(s, ser);
    OpenRouter.Pieces3(pre, req, img);
    pre + req + img
  }

  /** `process(state)` at `now`, after logging the call: the model's HTML,
      CSS and JavaScript unchanged, with the time, the number of processed
      images (0 when none) and the images' layout ('default' when none) as
      metadata. Any failure of the model call becomes the generic
      generation error. */
  function Process<R>(a: Agent, s: GenerationState<R>, ser: Serializers<R>, general: Option<string>,
                      chat: OpenRouter.Chat, now: int): (r: (Agent, Result<GenerationResult>))
    ensures r.0 == LogMessage(a, Message("generation", s.content), now)
    ensures var reply := OpenRouter.GenerateCode(ConstructPrompt(a, s, ser), OpenRouter.NoOptions, general, chat);
            && (reply.Err? ==> r.1 == Err(Config.GenerationError))
            && (reply.Ok? ==>
                  && r.1.Ok?
                  && r.1.value.html == reply.value.html
                  && r.1.value.css == reply.value.css
                  && r.1.value.js == reply.value.js
                  && r.1.value.meta == GenerationMeta(now, |Processed(s)|, OrElse(ImagesLayout(s), "default")))
  {
    var a' := LogMessage(a, Message("generation", s.content), now);
    match OpenRouter.GenerateCode(ConstructPrompt(a, s, ser), OpenRouter.NoOptions, general, chat)
    case Err(_) => (a', Err(Config.GenerationError))
    case Ok(code) =>
      (a', Ok(GenerationResult(code.html, code.css, code.js,
                               GenerationMeta(now, |Processed(s)|, OrElse(ImagesLayout(s), "default")))))
  }
}

=== FILE: config.dfy ===
/** The default configuration values: limits, durations and prompt tables.
    Values the program lets environment variables override are modelled by
    their defaults; the GENERAL system prompt, which has no default, is a
    parameter of the operations that read it. */
module Config {

  const MaxRequests: int := 50
  const RateWindowMs: int := 60000
  const CacheDurationMs: int := 3600000
  const MaxImages: int := 5

  const ApiKeyError: string := "API key not found in environment variables"
  const GenerationError: string := "Error generating content. Please refine your prompt"

  /** The kinds of prompt an agent can be asked to build. */
  datatype PromptType = Initial | Edit | Revision | ElementEdit | StyleEdit | Component | Gallery

  /** A system-prompt table: one text for each of INITIAL, EDIT and REVISION. */
  datatype SystemPrompts = SystemPrompts(initial: string, edit: string, revision: string)

  /** An agent-prompt table: INITIAL and EDIT always present, the other kinds optional. */
  type AgentPrompts = m: map<PromptType, string> | Initial in m && Edit in m
    witness map[Initial := "", Edit := ""]

  const SystemCode := SystemPrompts(
    "Focus on generating semantic HTML, modern CSS, and vanilla JavaScript. Ensure all code follows current best practices and WCAG guidelines.",
    "Modify existing code while maintaining structure and functionality. Focus on the specific element being edited.",
    "Update the existing code based on user feedback while preserving core functionality.")

  const SystemLayout := SystemPrompts(
    "Analyze the user's needs and create appropriate layouts. Consider responsive design, visual hierarchy, and user experience principles.",
    "Modify the layout while maintaining overall structure and responsiveness.",
    "Adjust the layout based on user feedback while preserving the core design principles.")

  const SystemImage := SystemPrompts(
    "When handling images, ensure proper lazy loading, alt text, and optimized delivery. Consider art direction and visual impact.",
    "Modify image presentation while maintaining performance and accessibility.",
    "Update image handling based on user feedback while preserving optimization.")

  const AgentCodeInitial := "Generate clean, semantic code with modern best practices."
  const AgentCodeEdit := "Modify specific code elements while maintaining consistency."
  const AgentCodeElementEdit := "Update the selected element while preserving context."
  const AgentCodeStyleEdit := "Modify styles while maintaining design consistency."
  const AgentCode: AgentPrompts := map[Initial := AgentCodeInitial, Edit := AgentCodeEdit,
    ElementEdit := AgentCodeElementEdit, StyleEdit := AgentCodeStyleEdit]

  const AgentLayoutInitial := "Create responsive, user-friendly layouts."
  const AgentLayoutEdit := "Adjust layout structure while maintaining responsiveness."
  const AgentLayoutComponent := "Design specific components within the layout."
  const AgentLayout: AgentPrompts := map[Initial := AgentLayoutInitial, Edit := AgentLayoutEdit,
    Component := AgentLayoutComponent]

  const AgentImageInitial := "Select and optimize images for the content."
  const AgentImageEdit := "Modify image presentation and optimization."
  const AgentImageGallery := "Create image galleries and collections."
  const AgentImage: AgentPrompts := map[Initial := AgentImageInitial, Edit := AgentImageEdit,
    Gallery := AgentImageGallery]
}

=== FILE: decimal.dfy ===
/** JavaScript `String(n)` for integers of magnitude below 10^21 (from
    10^21 up JavaScript switches to exponent form): an optional minus sign
    followed by decimal digits without leading zeros, and the parse that
    reads it back. */
module Decimal {

  predicate IsDigit(c: char) {
    '0' <= c <= '9'
  }

  predicate AllDigits(s: string) {
    forall i :: 0 <= i < |s| ==> IsDigit(s[i])
  }

  function DigitChar(d: nat): (c: char)
    requires d < 10
    ensures IsDigit(c)
  {
    ('0' as int + d) as char
  }

  function DigitValue(c: char): (d: nat)
    requires IsDigit(c)
    ensures d < 10
  {
    c as int - '0' as int
  }

  /** Decimal digits of `n`, most significant first. */
  function NatToString(n: nat): (s: string)
    ensures |s| >= 1 && AllDigits(s)
    ensures s[0] != '0' || s == "0"
    decreases n
  {
    if n < 10 then [DigitChar(n)] else NatToString(n / 10) + [DigitChar(n % 10)]
  }

  /** `String(n)` for an integer `n`. */
  function IntToString(n: int): (s: string)
    ensures |s| >= 1
    ensures n >= 0 ==> AllDigits(s)
    ensures n < 0 ==> s[0] == '-' && AllDigits(s[1..])
  {
    if n >= 0 then NatToString(n) else "-" + NatToString(-n)
  }

  /** The value of a string of decimal digits. */
  function DigitsToNat(s: string): nat
    requires AllDigits(s)
    decreases |s|
  {
    if |s| == 0 then 0 else DigitsToNat(s[..|s| - 1]) * 10 + DigitValue(s[|s| - 1])
  }

  /** An optional minus sign followed by digits. */
  predicate IsIntText(s: string) {
    (|s| > 0 && s[0] == '-' && AllDigits(s[1..])) || AllDigits(s)
  }

  /** Reads an optional minus sign followed by digits. */
  function ParseInt(s: string): int
    requires IsIntText(s)
  {
    if |s| > 0 && s[0] == '-' then -(DigitsToNat(s[1..]) as int) else DigitsToNat(s)
  }

  /** Reading the digits of `n` gives `n` back. */
  lemma {:induction false} NatRoundTrip(n: nat)
    ensures DigitsToNat(NatToString(n)) == n
    decreases n
  {
    if n >= 10 {
      var s := NatToString(n);
      NatRoundTrip(n / 10);
      assert s[..|s| - 1] == NatToString(n / 10);
      assert DigitValue(s[|s| - 1]) == n % 10;
    }
  }

  /** `String(n)` reads back as `n` for every integer. */
  lemma IntRoundTrip(n: int)
    ensures IsIntText(IntToString(n)) && ParseInt(IntToString(n)) == n
  {
    if n >= 0 {
      NatRoundTrip(n);
    } else {
      NatRoundTrip(-n);
      assert IntToString(n)[1..] == NatToString(-n);
    }
  }
}

=== FILE: image_agent.dfy ===
/** The image agent: builds the image-search query, turns the search
    service's hits into processed images, and suggests a layout name from
    how many images came back and, for a single image, its shape. The
    search call itself (HTTP request, status check and JSON decoding) is a
    parameter. */
module ImageAgent {
  import opened Results
  import opened Text
  import opened Decimal
  import Config
  import opened BaseAgent

  datatype SearchParams = SearchParams(
    query: string, count: Option<int>, imageType: Option<string>, orientation: Option<string>,
    category: Option<string>, minWidth: Option<int>, minHeight: Option<int>)

  datatype ProcessedImage = ProcessedImage(
    url: string, alt: string, width: int, height: int, source: string, license: string, attribution: string)

  /** The fields of a search hit the agent reads. */
  datatype Hit = Hit(webformatURL: string, tags: string, webformatWidth: int, webformatHeight: int, user: string)

  /** The decoded search response; `hits` is `None` when missing or not an array. */
  datatype SearchResponse = SearchResponse(totalHits: Option<int>, hits: Option<seq<Hit>>)

  datatype SearchMeta = SearchMeta(query: string, timestamp: int, total: int)

  datatype SearchResult = SearchResult(images: seq<ProcessedImage>, meta: SearchMeta)

  /** Query-string parameters, in the order they are appended. */
  type Query = seq<(string, string)>

  /** The remote search: the HTTP error for a failed call, else the decoded body. */
  type Search = Query -> Result<SearchResponse>

  datatype ImageAgent = ImageAgent(base: Agent, apiKey: string, maxImages: int)

  /** The constructor: the name 'image', the key from the environment (empty
      when unset), and at most 5 images per request. */
  function New(apiKey: Option<string>, general: Option<string>): (a: ImageAgent)
    ensures a.base == NewAgent("image", general)
    ensures a.apiKey == OrElse(apiKey, "") && a.maxImages == 5
  {
    ImageAgent(NewAgent("image", general), OrElse(apiKey, ""), Config.MaxImages)
  }

  /** The query-string parameters of `searchImages`: key, q, per_page
      (the count, or `maxImages` when the count is 0 or absent), image_type
      and orientation ('all' by default), min_width and min_height (0 by
      default), safesearch always 'true', and category only when given. */
  function SearchQuery(p: SearchParams, apiKey: string, maxImages: int): (q: Query)
    ensures |q| == if Truthy(p.category) then 9 else 8
    ensures q[0] == ("key", apiKey) && q[1] == ("q", p.query)
    ensures q[2].0 == "per_page"
    ensures q[2].1 == IntToString(NumOr(p.count, maxImages))
    ensures IsIntText(q[2].1) && ParseInt(q[2].1) == NumOr(p.count, maxImages)
    ensures q[3] == ("image_type", OrElse(p.imageType, "all"))
    ensures q[4] == ("orientation", OrElse(p.orientation, "all"))
    ensures q[5].0 == "min_width" && q[6].0 == "min_height"
    ensures q[5].1 == IntToString(NumOr(p.minWidth, 0)) && q[6].1 == IntToString(NumOr(p.minHeight, 0))
    ensures IsIntText(q[5].1) && ParseInt(q[5].1) == NumOr(p.minWidth, 0)
    ensures IsIntText(q[6].1) && ParseInt(q[6].1) == NumOr(p.minHeight, 0)
    ensures q[7] == ("safesearch", "true")
    ensures Truthy(p.category) ==> q[8] == ("category", p.category.value)
  {
    var perPage := NumOr(p.count, maxImages);
    var minW := NumOr(p.minWidth, 0);
    var minH := NumOr(p.minHeight, 0);
    IntRoundTrip(perPage);
    IntRoundTrip(minW);
    IntRoundTrip(minH);
    var q := [("key", apiKey), ("q", p.query), ("per_page", IntToString(perPage)),
              ("image_type", OrElse(p.imageType, "all")), ("orientation", OrElse(p.orientation, "all")),
              ("min_width", IntToString(minW)), ("min_height", IntToString(minH)), ("safesearch", "true")];
    if Truthy(p.category) then q + [("category", p.category.value)] else q
  }

  /** `generateAltText(tags)`: the comma-separated tags, trimmed, blanks
      dropped, joined with ", ". */
  function GenerateAltText(tags: string): (alt: string)
    ensures alt == "" <==> TidyPieces(tags, ',') == []
    ensures TidyPieces(tags, ',') != [] ==> Split(alt, ',') == PadTail(TidyPieces(tags, ','), " ")
  {
    TidyTags(tags);
    Tidy(tags, ',', " ")
  }

  /** Joining the trimmed non-blank tags with ", " splits back into them. */
  lemma TidyTags(tags: string)
    ensures Tidy(tags, ',', " ") == "" <==> TidyPieces(tags, ',') == []
    ensures TidyPieces(tags, ',') != [] ==> Split(Tidy(tags, ',', " "), ',') == PadTail(TidyPieces(tags, ','), " ")
  {
    var ks := TidyPieces(tags, ',');
    assert AllSpace(" ");
    if ks != [] {
      TidySplit(tags, ',', " ");
      JoinNonEmpty(ks, ", ");
    }
  }

  /** The alt text lists exactly the non-blank trimmed tags, in order: it
      splits on commas back into them (each after the first behind one
      space), so no tag in it is blank; and it is empty exactly when there
      is no such tag. */
  lemma AltTextTags(tags: string)
    ensures GenerateAltText(tags) == "" <==> TidyPieces(tags, ',') == []
    ensures TidyPieces(tags, ',') != [] ==>
      Split(GenerateAltText(tags), ',') == PadTail(TidyPieces(tags, ','), " ")
    ensures forall i :: 0 <= i < |TidyPieces(tags, ',')| ==> TidyPieces(tags, ',')[i] != ""
  {
  }

  lemma JoinNonEmpty(ks: seq<string>, glue: string)
    requires |ks| >= 1 && ks[0] != ""
    ensures Join(ks, glue) != ""
  {
    if |ks| > 1 {
      assert Join(ks, glue)[0] == ks[0][0];
    }
  }

  /** Alt text is its own alt text. */
  lemma AltTextIdempotent(tags: string)
    ensures GenerateAltText(GenerateAltText(tags)) == GenerateAltText(tags)
  {
    assert AllSpace(" ");
    TidyIdempotent(tags, ',', " ");
  }

  /** `processImages(response)`: no images when `hits` is missing; else one
      image per hit, in order, with the web-format URL and size, alt text
      from the tags, the fixed source and licence, and "Photo by <user>". */
  function ProcessImages(r: SearchResponse): (images: seq<ProcessedImage>)
    ensures r.hits.None? ==> images == []
    ensures r.hits.Some? ==> |images| == |r.hits.value|
    ensures r.hits.Some? ==> forall i :: 0 <= i < |images| ==>
      var h := r.hits.value[i];
      && images[i].url == h.webformatURL && images[i].alt == GenerateAltText(h.tags)
      && images[i].width == h.webformatWidth && images[i].height == h.webformatHeight
      && images[i].source == "Pixabay" && images[i].license == "Pixabay License"
      && images[i].attribution == "Photo by " + h.user
  {
    match r.hits
    case None => []
    case Some(hits) =>
      seq(|hits|, i requires 0 <= i < |hits| =>
        ProcessedImage(hits[i].webformatURL, GenerateAltText(hits[i].tags), hits[i].webformatWidth,
                       hits[i].webformatHeight, "Pixabay", "Pixabay License", "Photo by " + hits[i].user))
  }

  /** A single image is wide when its width exceeds 1.5 times its height. */
  predicate Wide(img: ProcessedImage) {
    2 * img.width > 3 * img.height
  }

  /** `suggestImageLayout(images)`, by count: 0 'default'; 1 'hero' when wide,
      else 'single'; 2-3 'grid-small'; 4-6 'grid-medium'; 7 or more 'gallery'. */
  function SuggestImageLayout(images: seq<ProcessedImage>): (r: string)
    ensures r == "default" <==> |images| == 0
    ensures r == "hero" <==> |images| == 1 && Wide(images[0])
    ensures r == "single" <==> |images| == 1 && !Wide(images[0])
    ensures r == "grid-small" <==> 2 <= |images| <= 3
    ensures r == "grid-medium" <==> 4 <= |images| <= 6
    ensures r == "gallery" <==> |images| >= 7
  {
    if |images| == 0 then "default"
    else if |images| == 1 then (if Wide(images[0]) then "hero" else "single")
    else if |images| <= 3 then "grid-small"
    else if |images| <= 6 then "grid-medium"
    else "gallery"
  }

  /** A non-empty image list never gets 'default', so its suggestion is
      always truthy. */
  lemma SuggestionNonEmpty(images: seq<ProcessedImage>)
    requires |images| > 0
    ensures SuggestImageLayout(images) != "" && SuggestImageLayout(images) != "default"
  {
  }

  /** `process(params)` at `now`. The call is logged first. Without an API
      key it fails with the API-key error; a failed search fails with the
      search's own error; otherwise the processed images, with the query,
      `now` and the total hit count (0 when absent) as metadata. */
  function Process(a: ImageAgent, p: SearchParams, search: Search, now: int): (r: (ImageAgent, Result<SearchResult>))
    ensures r.0 == a.(base := LogMessage(a.base, Message("image_search", p.query), now))
    ensures a.apiKey == "" ==> r.1 == Err(Config.ApiKeyError)
    ensures a.apiKey != "" && search(SearchQuery(p, a.apiKey, a.maxImages)).Err? ==>
      r.1 == Err(search(SearchQuery(p, a.apiKey, a.maxImages)).message)
    ensures a.apiKey != "" && search(SearchQuery(p, a.apiKey, a.maxImages)).Ok? ==>
      var resp := search(SearchQuery(p, a.apiKey, a.maxImages)).value;
      r.1 == Ok(SearchResult(ProcessImages(resp), SearchMeta(p.query, now, NumOr(resp.totalHits, 0))))
  {
    var a' := a.(base := LogMessage(a.base, Message("image_search", p.query), now));
    if a.apiKey == "" then (a', Err(Config.ApiKeyError))
    else
      match search(SearchQuery(p, a.apiKey, a.maxImages))
      case Err(e) => (a', Err(e))
      case Ok(resp) =>
        (a', Ok(SearchResult(ProcessImages(resp), SearchMeta(p.query, now, NumOr(resp.totalHits, 0)))))
  }

  /** Without an API key nothing is searched: the outcome is the same
      whatever the search service would have answered. */
  lemma NoKeyNoSearch(a: ImageAgent, p: SearchParams, s1: Search, s2: Search, now: int)
    requires a.apiKey == ""
    ensures Process(a, p, s1, now) == Process(a, p, s2, now)
  {
  }
}

=== FILE: layout_agent.dfy ===
/** The layout agent: names a layout type from the requirements and emits
    canned CSS: a container rule, an optional responsive rule, and one of
    four style blocks. */
module LayoutAgent {
  import opened Results
  import opened Decimal
  import opened Text
  import Config
  import opened BaseAgent

  datatype Element = Element(kind: string, content: Option<string>)

  datatype Constraints = Constraints(maxWidth: Option<int>, responsive: Option<bool>, spacing: Option<string>)

  /** `elements` is `None` when the caller passed no array. */
  datatype LayoutRequirements = LayoutRequirements(
    layoutType: string, elements: Option<seq<Element>>, constraints: Option<Constraints>)

  datatype LayoutMeta = LayoutMeta(layoutType: string, timestamp: int, responsive: bool)

  datatype LayoutResult = LayoutResult(layout: string, css: string, meta: LayoutMeta)

  const DefaultMaxWidth := 1200
  const DefaultSpacing := "1rem"

  /** The constructor: a base agent named 'layout'. Its agent table has a
      COMPONENT text but none for element edits, which fall back to INITIAL. */
  function New(general: Option<string>): (a: Agent)
    ensures a == NewAgent("layout", general)
    ensures AgentPromptForType(a.agentPrompt, Config.Component) == Config.AgentLayoutComponent
    ensures AgentPromptForType(a.agentPrompt, Config.ElementEdit) == Config.AgentLayoutInitial
  {
    NewAgent("layout", general)
  }

  predicate HasElement(elements: seq<Element>, kind: string) {
    exists i :: 0 <= i < |elements| && elements[i].kind == kind
  }

  /** `elements.map(el => el.type)`. */
  function Kinds(elements: seq<Element>): (kinds: seq<string>)
    ensures |kinds| == |elements|
    ensures forall i :: 0 <= i < |elements| ==> kinds[i] == elements[i].kind
  {
    seq(|elements|, i requires 0 <= i < |elements| => elements[i].kind)
  }

  /** `determineLayoutType(requirements)`: a non-empty `type` is returned as
      is; otherwise the element kinds decide, 'hero' before 'sidebar' before
      'gallery', giving 'landing', 'dashboard' or 'grid', else 'standard'.
      Reading the kinds of a missing element array throws. */
  function DetermineLayoutType(req: LayoutRequirements): (r: Result<string>)
    ensures req.layoutType != "" ==> r == Ok(req.layoutType)
    ensures req.layoutType == "" && req.elements.None? ==> r.Err?
    ensures req.layoutType == "" && req.elements.Some? ==>
      var es := req.elements.value;
      && (HasElement(es, "hero") ==> r == Ok("landing"))
      && (!HasElement(es, "hero") && HasElement(es, "sidebar") ==> r == Ok("dashboard"))
      && (!HasElement(es, "hero") && !HasElement(es, "sidebar") && HasElement(es, "gallery") ==> r == Ok("grid"))
      && (!HasElement(es, "hero") && !HasElement(es, "sidebar") && !HasElement(es, "gallery") ==> r == Ok("standard"))
  {
    if req.layoutType != "" then Ok(req.layoutType)
    else if req.elements.None? then Err("TypeError: cannot read 'map' of undefined")
    else
      var kinds := Kinds(req.elements.value);
      assert forall k :: k in kinds <==> HasElement(req.elements.value, k);
      if "hero" in kinds then Ok("landing")
      else if "sidebar" in kinds then Ok("dashboard")
      else if "gallery" in kinds then Ok("grid")
      else Ok("standard")
  }

  /** The four canned style blocks. */
  datatype StyleBlock = LandingBlock | DashboardBlock | GridBlock | StandardBlock

  /** The block the `switch` on the raw `type` picks: 'landing', 'dashboard'
      and 'grid' their own, every other string (the empty one included) the
      standard block. */
  function BlockFor(rawType: string): (b: StyleBlock)
    ensures b == LandingBlock <==> rawType == "landing"
    ensures b == DashboardBlock <==> rawType == "dashboard"
    ensures b == GridBlock <==> rawType == "grid"
    ensures b == StandardBlock <==> rawType !in {"landing", "dashboard", "grid"}
  {
    match rawType
    case "landing" => LandingBlock
    case "dashboard" => DashboardBlock
    case "grid" => GridBlock
    case _ => StandardBlock
  }

  const LandingCss := Join([
    "",
    "            .hero {",
    "                min-height: 80vh;",
    "                display: flex;",
    "                align-items: center;",
    "                justify-content: center;",
    "                text-align: center;",
    "                padding: 2rem;",
    "            }",
    "",
    "            .features {",
    "                display: grid;",
    "                grid-template-columns: repeat(auto-fit, minmax(300px, 1fr));",
    "                gap: 2rem;",
    "                padding: 4rem 2rem;",
    "            }",
    "        "], "\n")
  const DashboardCss := Join([
    "",
    "            .dashboard {",
    "                display: grid;",
    "                grid-template-columns: 250px 1fr;",
    "                min-height: 100vh;",
    "            }",
    "",
    "            .sidebar {",
    "                background: #f5f5f5;",
    "                padding: 1rem;",
    "            }",
    "",
    "            .main-content {",
    "                padding: 2rem;",
    "            }",
    "",
    "            @media (max-width: 768px) {",
    "                .dashboard {",
    "                    grid-template-columns: 1fr;",
    "                }",
    "",
    "                .sidebar {",
    "                    display: none;",
    "                }",
    "            }",
    "        "], "\n")
  const GridCss := Join([
    "",
    "            .grid {",
    "                display: grid;",
    "                grid-template-columns: repeat(auto-fill, minmax(250px, 1fr));",
    "                gap: 1.5rem;",
    "                padding: 1.5rem;",
    "            }",
    "",
    "            .grid-item {",
    "                background: #fff;",
    "                border-radius: 8px;",
    "                overflow: hidden;",
    "                box-shadow: 0 2px 4px rgba(0,0,0,0.1);",
    "            }",
    "        "], "\n")
  const StandardCss := Join([
    "",
    "            .content {",
    "                max-width: 800px;",
    "                margin: 0 auto;",
    "                padding: 2rem;",
    "            }",
    "",
    "            .section {",
    "                margin-bottom: 3rem;",
    "            }",
    "        "], "\n")

  function BlockCss(b: StyleBlock): string {
    match b
    case LandingBlock => LandingCss
    case DashboardBlock => DashboardCss
    case GridBlock => GridCss
    case StandardBlock => StandardCss
  }

  /** The `.container` rule for a maximum width and a padding. */
  function ContainerRule(maxWidth: int, spacing: string): string {
    Join([
      "",
      "            .container {",
      "                max-width: " + IntToString(maxWidth) + "px;",
      "                margin: 0 auto;",
      "                padding: " + spacing + ";",
      "            }",
      "        "], "\n")
  }

  /** The small-screen rule halving the container padding. */
  function ResponsiveRule(spacing: string): string {
    Join([
      "",
      "                @media (max-width: 768px) {",
      "                    .container {",
      "                        padding: calc(" + spacing + " / 2);",
      "                    }",
      "                }",
      "            "], "\n")
  }

  /** The constraints with their defaults filled in: width 1200, responsive, spacing '1rem'. */
  function MaxWidthOf(req: LayoutRequirements): int {
    if req.constraints.Some? then req.constraints.value.maxWidth.GetOr(DefaultMaxWidth) else DefaultMaxWidth
  }

  function SpacingOf(req: LayoutRequirements): string {
    if req.constraints.Some? then req.constraints.value.spacing.GetOr(DefaultSpacing) else DefaultSpacing
  }

  function ResponsiveOf(req: LayoutRequirements): bool {
    if req.constraints.Some? then req.constraints.value.responsive.GetOr(true) else true
  }

  /** `generateLayoutCSS(requirements)`: the container rule first, then the
      responsive rule exactly when `responsive` (default true) holds, then
      the block the raw `type` selects, last. */
  function GenerateLayoutCSS(req: LayoutRequirements): (css: string)
    ensures var head := ContainerRule(MaxWidthOf(req), SpacingOf(req));
            var mid := ResponsiveRule(SpacingOf(req));
            var tail := BlockCss(BlockFor(req.layoutType));
            && |css| == |head| + (if ResponsiveOf(req) then |mid| else 0) + |tail|
            && css[..|head|] == head
            && (ResponsiveOf(req) ==> css[|head|..|head| + |mid|] == mid)
            && css[|css| - |tail|..] == tail
  {
    var head := ContainerRule(MaxWidthOf(req), SpacingOf(req));
    var mid := if ResponsiveOf(req) then ResponsiveRule(SpacingOf(req)) else "";
    var tail := BlockCss(BlockFor(req.layoutType));
    CssShape(head, ResponsiveRule(SpacingOf(req)), tail, ResponsiveOf(req));
    head + mid + tail
  }

  lemma CssShape(head: string, mid: string, tail: string, responsive: bool)
    ensures var css := head + (if responsive then mid else "") + tail;
            && |css| == |head| + (if responsive then |mid| else 0) + |tail|
            && css[..|head|] == head
            && (responsive ==> css[|head|..|head| + |mid|] == mid)
            && css[|css| - |tail|..] == tail
  {
  }

  /** `process(requirements)` at `now`, after logging the call: the determined
      type as both `layout` and `meta.type`, the generated CSS, and
      `meta.responsive` defaulting to true; any failure becomes the generic
      generation error. */
  function Process(a: Agent, req: LayoutRequirements, now: int): (r: (Agent, Result<LayoutResult>))
    ensures r.0 == LogMessage(a, Message("layout_generation", req.layoutType), now)
    ensures DetermineLayoutType(req).Err? <==> r.1.Err?
    ensures r.1.Err? ==> r.1.message == Config.GenerationError
    ensures r.1.Ok? ==>
      && DetermineLayoutType(req) == Ok(r.1.value.layout)
      && r.1.value.meta.layoutType == r.1.value.layout
      && r.1.value.meta.timestamp == now
      && r.1.value.meta.responsive == ResponsiveOf(req)
      && r.1.value.css == GenerateLayoutCSS(req)
  {
    var a' := LogMessage(a, Message("layout_generation", req.layoutType), now);
    match DetermineLayoutType(req)
    case Err(_) => (a', Err(Config.GenerationError))
    case Ok(t) => (a', Ok(LayoutResult(t, GenerateLayoutCSS(req), LayoutMeta(t, now, ResponsiveOf(req)))))
  }

  /** The block follows the raw `type`, not the determined one: with an
      empty type and a 'hero' element the layout is 'landing' but the CSS
      ends with the standard block. */
  lemma BlockIgnoresInferredType(es: seq<Element>, c: Option<Constraints>)
    requires HasElement(es, "hero")
    ensures DetermineLayoutType(LayoutRequirements("", Some(es), c)) == Ok("landing")
    ensures BlockFor(LayoutRequirements("", Some(es), c).layoutType) == StandardBlock
  {
  }

  /** The names the image agent suggests are never one of the three special
      types, so a layout requested with one of them gets that name back as
      its layout and the standard block as its CSS. */
  lemma ImageSuggestionsGetStandardBlock(t: string, es: Option<seq<Element>>, c: Option<Constraints>)
    requires t in {"default", "hero", "single", "grid-small", "grid-medium", "gallery"}
    ensures DetermineLayoutType(LayoutRequirements(t, es, c)) == Ok(t)
    ensures BlockFor(t) == StandardBlock
  {
  }
}

=== FILE: open_router.dfy ===
/** The chat-completion client: it assembles the system and user prompts,
    hands them to the remote model, and cuts the reply into HTML, CSS and
    JavaScript by looking for fenced code blocks. The remote call (request,
    status check, JSON decoding and reading the first choice's text) is a
    parameter. */
module OpenRouter {
  import opened Results
  import opened Text
  import opened Config
  import BaseAgent

  datatype Options = Options(
    context: Option<string>, style: Option<string>, elementType: Option<string>,
    existingContent: Option<string>, promptType: Option<PromptType>)

  /** `generateCode(prompt)` called without options. */
  const NoOptions := Options(None, None, None, None, None)

  /** The parsed reply: the three code blocks and the whole reply text. */
  datatype Code = Code(html: string, css: string, js: string, raw: string)

  /** The remote model: the system prompt and the user prompt in, the reply
      text or the error out. */
  type Chat = (string, string) -> Result<string>

  // ---------------------------------------------------------------------
  // System prompt
  // ---------------------------------------------------------------------

  /** `(table as any)[type] || table.INITIAL`: a system table has only
      INITIAL, EDIT and REVISION, so every other type, and an empty entry,
      falls back to INITIAL. */
  function TableEntry(sp: SystemPrompts, t: PromptType): (r: string)
    ensures t == Edit ==> r == (if sp.edit != "" then sp.edit else sp.initial)
    ensures t == Revision ==> r == (if sp.revision != "" then sp.revision else sp.initial)
    ensures t !in {Edit, Revision} ==> r == sp.initial
    ensures r in {sp.initial, sp.edit, sp.revision}
  {
    var entry := match t
      case Initial => sp.initial
      case Edit => sp.edit
      case Revision => sp.revision
      case _ => "";
    if entry != "" then entry else sp.initial
  }

  /** The base of `getSystemPrompt(options)`: element types 'code', 'layout'
      and 'image' read that system table at the prompt type (INITIAL by
      default); any other element type, or none, gets GENERAL or ''. */
  function BaseSystemPrompt(o: Options, general: Option<string>): (r: string)
    ensures o.elementType == Some("code") ==> r == TableEntry(SystemCode, o.promptType.GetOr(Initial))
    ensures o.elementType == Some("layout") ==> r == TableEntry(SystemLayout, o.promptType.GetOr(Initial))
    ensures o.elementType == Some("image") ==> r == TableEntry(SystemImage, o.promptType.GetOr(Initial))
    ensures o.elementType !in {Some("code"), Some("layout"), Some("image")} ==> r == BaseAgent.GeneralOrEmpty(general)
  {
    var t := o.promptType.GetOr(Initial);
    if o.elementType == Some("code") then TableEntry(SystemCode, t)
    else if o.elementType == Some("layout") then TableEntry(SystemLayout, t)
    else if o.elementType == Some("image") then TableEntry(SystemImage, t)
    else BaseAgent.GeneralOrEmpty(general)
  }

  const KeyRequirements := Join([
    "",
    "",
    "Key requirements:",
    "- Use semantic HTML5 elements",
    "- Implement modern CSS best practices",
    "- Write clean, efficient JavaScript",
    "- Ensure responsive design",
    "- Follow accessibility guidelines",
    "- Create engaging animations",
    "- Use proper error handling",
    "- Implement user feedback",
    "- Optimize performance"], "\n")

  const StyleGuideLabel := "\nAdhere to this style guide: "

  /** `getSystemPrompt(options)`: the base prompt, then the fixed
      key-requirements block, then the style-guide line exactly when a
      non-empty style is given. */
  function SystemPrompt(o: Options, general: Option<string>): (r: string)
    ensures var base := BaseSystemPrompt(o, general);
            && |r| == |base| + |KeyRequirements| + (if Truthy(o.style) then |StyleGuideLabel| + |o.style.value| else 0)
            && r[..|base|] == base
            && r[|base|..|base| + |KeyRequirements|] == KeyRequirements
            && (Truthy(o.style) ==> r[|base| + |KeyRequirements|..] == StyleGuideLabel + o.style.value)
  {
    var base := BaseSystemPrompt(o, general);
    var style := if Truthy(o.style) then StyleGuideLabel + o.style.value else "";
    Pieces3(base, KeyRequirements, style);
    base + KeyRequirements + style
  }

  lemma Pieces3(a: string, b: string, c: string)
    ensures var s := a + b + c;
            && |s| == |a| + |b| + |c|
            && s[..|a|] == a && s[|a|..|a| + |b|] == b && s[|a| + |b|..] == c
  {
  }

  /** The agents and this client pick different system prompts for the
      element-edit and style-edit types: an agent reads its EDIT slot, this
      client falls back to INITIAL, as no system table has those keys. */
  lemma EditTypesDiverge(sp: SystemPrompts, t: PromptType)
    requires t in {ElementEdit, StyleEdit}
    ensures BaseAgent.SystemPromptForType(sp, t) == sp.edit
    ensures TableEntry(sp, t) == sp.initial
  {
  }

  // ---------------------------------------------------------------------
  // User prompt
  // ---------------------------------------------------------------------

  const Instructions := Join([
    "",
    "",
    "Please provide the code in three distinct sections:",
    "1. HTML: Semantic structure with proper accessibility attributes",
    "2. CSS: Modern styling with responsive design and animations",
    "3. JavaScript: Clean, efficient code with proper event handling",
    "",
    "Additional requirements:",
    "- Use CSS Grid and Flexbox for layouts",
    "- Implement smooth transitions and animations",
    "- Add hover states and interactive elements",
    "- Ensure mobile responsiveness",
    "- Include error handling and loading states",
    "- Add appropriate ARIA labels and roles",
    "- Optimize for performance"], "\n")

  const ExistingLabel := "\n\nExisting content to modify: "

  /** The request part of `constructPrompt`: the prompt alone, or under a
      context as "Context: <context>\n\nRequest: <prompt>". */
  function RequestPart(prompt: string, o: Options): (r: string)
    ensures !Truthy(o.context) ==> r == prompt
    ensures Truthy(o.context) ==>
      && |r| == |"Context: " + o.context.value + "\n\nRequest: "| + |prompt|
      && StartsWith(r, "Context: " + o.context.value + "\n\nRequest: ")
      && r[|r| - |prompt|..] == prompt
  {
    if Truthy(o.context) then "Context: " + o.context.value + "\n\nRequest: " + prompt else prompt
  }

  /** `constructPrompt(prompt, options)`: the request part, then the
      existing content when given, then the fixed instructions, always last. */
  function ConstructPrompt(prompt: string, o: Options): (r: string)
    ensures var req := RequestPart(prompt, o);
            var existing := if Truthy(o.existingContent) then ExistingLabel + o.existingContent.value else "";
            && |r| == |req| + |existing| + |Instructions|
            && r[..|req|] == req
            && r[|req|..|req| + |existing|] == existing
            && r[|r| - |Instructions|..] == Instructions
  {
    var req := RequestPart(prompt, o);
    var existing := if Truthy(o.existingContent) then ExistingLabel + o.existingContent.value else "";
    Pieces3(req, existing, Instructions);
    req + existing + Instructions
  }

  // ---------------------------------------------------------------------
  // Reply parsing
  // ---------------------------------------------------------------------

  const Fence := "```"

  /** The opening fence of a block: three backticks, the language, a newline. */
  function Opener(lang: string): string {
    Fence + lang + "\n"
  }

  /** The leftmost match of the lazy pattern  ```lang\n(...)```  : the
      first opener at `i`, and the first closing fence at `j` after it. */
  predicate LeftmostBlock(content: string, lang: string, i: int, j: int) {
    FirstFrom(content, Opener(lang), 0, i) && FirstFrom(content, Fence, i + |Opener(lang)|, j)
  }

  /** The text of the first block labelled `lang`; `None` exactly when the
      pattern has no match at all, that is when no opener is followed by a
      closing fence. */
  function ExtractBlock(content: string, lang: string): (r: Option<string>)
    ensures r.Some? ==> exists i, j :: LeftmostBlock(content, lang, i, j) && r.value == content[i + |Opener(lang)|..j]
    ensures r.None? ==> forall i, j :: Occurs(content, Opener(lang), i) && i + |Opener(lang)| <= j ==> !Occurs(content, Fence, j)
  {
    var op := Opener(lang);
    match IndexOf(content, op, 0)
    case None => None
    case Some(i) =>
      match IndexOf(content, Fence, i + |op|)
      case None => None
      case Some(j) =>
        assert LeftmostBlock(content, lang, i, j);
        Some(content[i + |op|..j])
  }

  /** `formatCode(code)`: every line trimmed, blank lines dropped. Empty
      exactly when no line is non-blank; otherwise its lines are the
      trimmed non-blank lines, in order. */
  function FormatCode(code: string): (r: string)
    ensures r == "" <==> TidyPieces(code, '\n') == []
    ensures r != "" ==> Split(r, '\n') == TidyPieces(code, '\n')
  {
    TidyLines(code);
    Tidy(code, '\n', "")
  }

  /** The formatted code's lines are exactly the input's non-blank lines,
      trimmed, in order: none is blank and none has white space at either
      end. Empty output means no non-blank line. */
  lemma FormatCodeLines(code: string)
    ensures FormatCode(code) == "" <==> TidyPieces(code, '\n') == []
    ensures FormatCode(code) != "" ==> Split(FormatCode(code), '\n') == TidyPieces(code, '\n')
    ensures forall k :: 0 <= k < |TidyPieces(code, '\n')| ==>
      TidyPieces(code, '\n')[k] != "" && Trimmed(TidyPieces(code, '\n')[k])
  {
  }

  /** Joining the trimmed non-blank lines with no pad splits back into them. */
  lemma TidyLines(code: string)
    ensures Tidy(code, '\n', "") == "" <==> TidyPieces(code, '\n') == []
    ensures Tidy(code, '\n', "") != "" ==> Split(Tidy(code, '\n', ""), '\n') == TidyPieces(code, '\n')
  {
    var ks := TidyPieces(code, '\n');
    if ks != [] {
      TidySplit(code, '\n', "");
      assert PadTail(ks, "") == ks by {
        forall k | 1 <= k < |ks| ensures PadTail(ks, "")[k] == ks[k] {
          assert "" + ks[k] == ks[k];
        }
      }
      if |ks| > 1 {
        assert Tidy(code, '\n', "")[0] == ks[0][0];
      }
    }
  }

  /** Formatting formatted code changes nothing. */
  lemma FormatCodeIdempotent(code: string)
    ensures FormatCode(FormatCode(code)) == FormatCode(code)
  {
    TidyIdempotent(code, '\n', "");
  }

  /** The text of a block as `parseResponse` keeps it: trimmed, then
      formatted; empty when the block is missing. */
  function BlockText(content: string, lang: string): (r: string)
    ensures ExtractBlock(content, lang).None? ==> r == ""
    ensures ExtractBlock(content, lang).Some? ==> r == FormatCode(Trim(ExtractBlock(content, lang).value))
  {
    match ExtractBlock(content, lang)
    case None => FormatCode(Trim(""))
    case Some(b) => FormatCode(Trim(b))
  }

  /** `parseResponse(data)` given the reply text: the 'html', 'css' and
      'javascript' blocks, missing ones as empty strings (never an error),
      and the reply itself unchanged. */
  function ParseResponse(content: string): (r: Code)
    ensures r.raw == content
    ensures r.html == BlockText(content, "html")
    ensures r.css == BlockText(content, "css")
    ensures r.js == BlockText(content, "javascript")
  {
    Code(BlockText(content, "html"), BlockText(content, "css"), BlockText(content, "javascript"), content)
  }

  /** `generateCode(prompt, options)`: one call to the model with the
      assembled system and user prompts; its error is passed on unchanged,
      its reply is parsed. */
  function GenerateCode(prompt: string, o: Options, general: Option<string>, chat: Chat): (r: Result<Code>)
    ensures chat(SystemPrompt(o, general), ConstructPrompt(prompt, o)).Err? ==>
      r == Err(chat(SystemPrompt(o, general), ConstructPrompt(prompt, o)).message)
    ensures chat(SystemPrompt(o, general), ConstructPrompt(prompt, o)).Ok? ==>
      r == Ok(ParseResponse(chat(SystemPrompt(o, general), ConstructPrompt(prompt, o)).value))
  {
    match chat(SystemPrompt(o, general), ConstructPrompt(prompt, o))
    case Err(e) => Err(e)
    case Ok(content) => Ok(ParseResponse(content))
  }
}

=== FILE: orchestrator.dfy ===
/** The orchestrator: runs the image agent (when images are asked for), the
    layout agent (when a layout is asked for or the images suggest one) and
    the code agent, in that order, and merges their outputs. Each agent's
    message log is part of the state it threads through. */
module AgentOrchestrator {
  import opened Results
  import opened Text
  import Config
  import opened BaseAgent
  import ImageAgent
  import opened LayoutAgent
  import opened CodeAgent
  import OpenRouter

  datatype ImageRequest = ImageRequest(query: Option<string>, count: Option<int>, imageType: Option<string>)

  datatype Style = Style(theme: Option<string>, colorScheme: Option<string>)

  datatype RequestRequirements = RequestRequirements(
    layout: Option<string>, images: Option<ImageRequest>, style: Option<Style>)

  datatype GenerationRequest = GenerationRequest(content: string, requirements: Option<RequestRequirements>)

  /** `{...request.requirements, layout: layoutResult}`: the caller's image
      and style requests with the layout name replaced by the layout
      agent's result, or by nothing when that stage did not run. */
  datatype MergedRequirements = MergedRequirements(
    images: Option<ImageRequest>, style: Option<Style>, layout: Option<LayoutResult>)

  datatype Orchestrator = Orchestrator(code: Agent, layout: Agent, image: ImageAgent.ImageAgent)

  /** What the orchestrator calls but does not compute: the image search,
      the language model, JSON serialisation and the GENERAL system prompt. */
  datatype Services = Services(
    search: ImageAgent.Search, chat: OpenRouter.Chat,
    serializers: Serializers<MergedRequirements>, general: Option<string>)

  /** The constructor: one agent of each kind. */
  function New(apiKey: Option<string>, general: Option<string>): (o: Orchestrator)
    ensures o.code.name == "codeGen" && o.layout.name == "layout" && o.image.base.name == "image"
    ensures o.code.log == [] && o.layout.log == [] && o.image.base.log == []
    ensures o.image.apiKey == OrElse(apiKey, "")
  {
    Orchestrator(CodeAgent.New(general), LayoutAgent.New(general), ImageAgent.New(apiKey, general))
  }

  /** `request.requirements?.images?.query`. */
  function ImageQuery(req: GenerationRequest): Option<string> {
    if req.requirements.Some? && req.requirements.value.images.Some? then req.requirements.value.images.value.query
    else None
  }

  /** `request.requirements?.layout`. */
  function RequestedLayout(req: GenerationRequest): Option<string> {
    if req.requirements.Some? then req.requirements.value.layout else None
  }

  /** The search the image stage asks for: query, count and type only. */
  function SearchFor(req: GenerationRequest): (p: ImageAgent.SearchParams)
    requires Truthy(ImageQuery(req))
    ensures p.query == ImageQuery(req).value && p.query != ""
    ensures p.count == req.requirements.value.images.value.count
    ensures p.imageType == req.requirements.value.images.value.imageType
    ensures p.orientation.None? && p.category.None? && p.minWidth.None? && p.minHeight.None?
  {
    var ir := req.requirements.value.images.value;
    ImageAgent.SearchParams(ir.query.value, ir.count, ir.imageType, None, None, None, None)
  }

  /** Step 1. Only a non-empty query starts a search; a search that finds
      images yields them with the layout the image agent suggests for them,
      one that finds none yields no image data, and a failed one fails. */
  function ImageStage(img: ImageAgent.ImageAgent, req: GenerationRequest, search: ImageAgent.Search, now: int)
    : (r: (ImageAgent.ImageAgent, Result<Option<ImageData>>))
    ensures !Truthy(ImageQuery(req)) ==> r == (img, Ok(None))
    ensures Truthy(ImageQuery(req)) ==>
      var (a', res) := ImageAgent.Process(img, SearchFor(req), search, now);
      && r.0 == a'
      && (r.1.Err? <==> res.Err?)
      && (res.Ok? && |res.value.images| == 0 ==> r.1 == Ok(None))
      && (res.Ok? && |res.value.images| > 0 ==> r.1 == Ok(Some(ImageData(Some(res.value.images), Some(ImageAgent.SuggestImageLayout(res.value.images))))))
    ensures r.1.Ok? && r.1.value.Some? ==>
      var d := r.1.value.value;
      && d.processed.Some? && |d.processed.value| > 0
      && d.layout == Some(ImageAgent.SuggestImageLayout(d.processed.value))
      && Truthy(d.layout)
  {
    if !Truthy(ImageQuery(req)) then (img, Ok(None))
    else
      var (a', res) := ImageAgent.Process(img, SearchFor(req), search, now);
      match res
      case Err(e) => (a', Err(e))
      case Ok(found) =>
        if |found.images| > 0 then
          ImageAgent.SuggestionNonEmpty(found.images);
          (a', Ok(Some(ImageData(Some(found.images), Some(ImageAgent.SuggestImageLayout(found.images))))))
        else (a', Ok(None))
  }

  /** The kinds in the order `determineLayoutElements` appends them. */
  function Rank(kind: string): nat {
    match kind
    case "single-image" => 0
    case "gallery" => 0
    case "header" => 1
    case "footer" => 2
    case "main-content" => 3
    case _ => 4
  }

  /** Element kinds strictly increase in rank: the append order, no kind twice. */
  predicate Ranked(es: seq<Element>) {
    forall i, j :: 0 <= i < j < |es| ==> Rank(es[i].kind) < Rank(es[j].kind)
  }

  /** The one-element list `[e]` when `b` holds, else the empty one. */
  function When(b: bool, e: Element): (es: seq<Element>)
    ensures |es| <= 1 && (es != [] <==> b) && (b ==> es[0] == e)
  {
    if b then [e] else []
  }

  /** `determineLayoutElements(request, imageData)`: an image element when
      there are processed images ('single-image' for one, 'gallery' for
      more), a header and a footer when the request mentions them in any
      case, and a main-content section always, in that order. */
  function DetermineLayoutElements(content: string, imageData: Option<ImageData>): (es: seq<Element>)
    ensures 1 <= |es| <= 4
    ensures es[|es| - 1] == Element("main-content", None)
    ensures Ranked(es)
    ensures (imageData.Some? && imageData.value.processed.Some?) <==> Rank(es[0].kind) == 0
    ensures imageData.Some? && imageData.value.processed.Some? ==>
      es[0] == Element(if |imageData.value.processed.value| == 1 then "single-image" else "gallery", Some("images"))
    ensures HasElement(es, "header") <==> ContainsIgnoringCase(content, "header")
    ensures HasElement(es, "footer") <==> ContainsIgnoringCase(content, "footer")
    ensures forall i :: 0 <= i < |es| && es[i].kind in {"header", "footer"} ==> es[i].content == None
  {
    var hasImages := imageData.Some? && imageData.value.processed.Some?;
    var imageKind := if hasImages && |imageData.value.processed.value| == 1 then "single-image" else "gallery";
    Assemble(hasImages, imageKind, ContainsIgnoringCase(content, "header"), ContainsIgnoringCase(content, "footer"))
  }

  /** The element list from the four decisions, in append order. */
  function Assemble(hasImages: bool, imageKind: string, hasHeader: bool, hasFooter: bool): (es: seq<Element>)
    requires imageKind in {"single-image", "gallery"}
    ensures 1 <= |es| <= 4
    ensures es[|es| - 1] == Element("main-content", None)
    ensures Ranked(es)
    ensures hasImages <==> Rank(es[0].kind) == 0
    ensures hasImages ==> es[0] == Element(imageKind, Some("images"))
    ensures HasElement(es, "header") <==> hasHeader
    ensures HasElement(es, "footer") <==> hasFooter
    ensures forall i :: 0 <= i < |es| && es[i].kind in {"header", "footer"} ==> es[i].content == None
  {
    PartsContent(hasImages, imageKind, hasHeader, hasFooter);
    PartsRanked(hasImages, imageKind, hasHeader, hasFooter);
    PartsFirst(hasImages, imageKind, hasHeader, hasFooter);
    PartsHas(hasImages, imageKind, hasHeader, hasFooter, "header");
    PartsHas(hasImages, imageKind, hasHeader, hasFooter, "footer");
    Parts(hasImages, imageKind, hasHeader, hasFooter)
  }

  /** The image, header, footer and main-content pieces, concatenated. */
  function Parts(hasImages: bool, imageKind: string, hasHeader: bool, hasFooter: bool): seq<Element> {
    When(hasImages, Element(imageKind, Some("images"))) + When(hasHeader, Element("header", None))
      + When(hasFooter, Element("footer", None)) + [Element("main-content", None)]
  }

  /** Every element is bare (no content) unless it has kind `k`. */
  predicate BareExcept(es: seq<Element>, k: string) {
    forall i :: 0 <= i < |es| ==> es[i].content == None || es[i].kind == k
  }

  /** Only the image element carries content. */
  lemma PartsContent(hasImages: bool, imageKind: string, hasHeader: bool, hasFooter: bool)
    requires imageKind in {"single-image", "gallery"}
    ensures BareExcept(Parts(hasImages, imageKind, hasHeader, hasFooter), imageKind)
  {
    var image := When(hasImages, Element(imageKind, Some("images")));
    var header := When(hasHeader, Element("header", None));
    var footer := When(hasFooter, Element("footer", None));
    var main := [Element("main-content", None)];
    assert BareExcept(image, imageKind) && BareExcept(header, imageKind);
    assert BareExcept(footer, imageKind) && BareExcept(main, imageKind);
    BareAppend(image, header, imageKind);
    BareAppend(image + header, footer, imageKind);
    BareAppend(image + header + footer, main, imageKind);
  }

  lemma BareAppend(a: seq<Element>, b: seq<Element>, k: string)
    requires BareExcept(a, k) && BareExcept(b, k)
    ensures BareExcept(a + b, k)
  {
    forall i | 0 <= i < |a + b| ensures (a + b)[i].content == None || (a + b)[i].kind == k {
      if i >= |a| {
        assert (a + b)[i] == b[i - |a|];
      }
    }
  }

  lemma PartsRanked(hasImages: bool, imageKind: string, hasHeader: bool, hasFooter: bool)
    requires imageKind in {"single-image", "gallery"}
    ensures Ranked(Parts(hasImages, imageKind, hasHeader, hasFooter))
  {
    WhenBounds(hasImages, Element(imageKind, Some("images")), 0, 1);
    WhenBounds(hasHeader, Element("header", None), 1, 2);
    WhenBounds(hasFooter, Element("footer", None), 2, 3);
    WhenBounds(true, Element("main-content", None), 3, 4);
    FourRanked(When(hasImages, Element(imageKind, Some("images"))), When(hasHeader, Element("header", None)),
      When(hasFooter, Element("footer", None)), [Element("main-content", None)]);
  }

  lemma PartsFirst(hasImages: bool, imageKind: string, hasHeader: bool, hasFooter: bool)
    requires imageKind in {"single-image", "gallery"}
    ensures var es := Parts(hasImages, imageKind, hasHeader, hasFooter);
      1 <= |es| <= 4 && es[|es| - 1] == Element("main-content", None) &&
      (hasImages <==> Rank(es[0].kind) == 0) &&
      (hasImages ==> es[0] == Element(imageKind, Some("images")))
  {
    var image := When(hasImages, Element(imageKind, Some("images")));
    var rest := When(hasHeader, Element("header", None)) + When(hasFooter, Element("footer", None)) + [Element("main-content", None)];
    var es := Parts(hasImages, imageKind, hasHeader, hasFooter);
    assert es == image + rest;
    assert rest[0].kind != "single-image" && rest[0].kind != "gallery";
    if hasImages {
      assert es[0] == image[0];
    } else {
      assert es == rest;
    }
  }

  lemma PartsHas(hasImages: bool, imageKind: string, hasHeader: bool, hasFooter: bool, kind: string)
    requires imageKind in {"single-image", "gallery"}
    requires kind in {"header", "footer"}
    ensures HasElement(Parts(hasImages, imageKind, hasHeader, hasFooter), kind) <==>
      (kind == "header" && hasHeader) || (kind == "footer" && hasFooter)
  {
    var image := When(hasImages, Element(imageKind, Some("images")));
    var header := When(hasHeader, Element("header", None));
    var footer := When(hasFooter, Element("footer", None));
    var main := [Element("main-content", None)];
    FourHas(image, header, footer, main, kind);
    WhenHas(hasImages, Element(imageKind, Some("images")), kind);
    WhenHas(hasHeader, Element("header", None), kind);
    WhenHas(hasFooter, Element("footer", None), kind);
    WhenHas(true, Element("main-content", None), kind);
  }

  lemma WhenHas(b: bool, e: Element, kind: string)
    ensures HasElement(When(b, e), kind) <==> b && e.kind == kind
  {
    if b && e.kind == kind {
      assert When(b, e)[0].kind == kind;
    }
  }

  lemma WhenBounds(b: bool, e: Element, lo: nat, hi: nat)
    requires lo <= Rank(e.kind) < hi
    ensures Ranked(When(b, e)) && AtLeast(When(b, e), lo) && Below(When(b, e), hi)
  {
  }

  lemma FourRanked(a: seq<Element>, b: seq<Element>, c: seq<Element>, d: seq<Element>)
    requires Ranked(a) && Ranked(b) && Ranked(c) && Ranked(d)
    requires Below(a, 1) && AtLeast(b, 1) && Below(b, 2) && AtLeast(c, 2) && Below(c, 3) && AtLeast(d, 3)
    ensures Ranked(a + b + c + d)
  {
    assert Below(a, 2);
    RankedAppend(a, b, 1, 2);
    assert Below(a + b, 3);
    RankedAppend(a + b, c, 2, 3);
    RankedAppend(a + b + c, d, 3, 4);
  }

  predicate Below(es: seq<Element>, k: nat) {
    forall i :: 0 <= i < |es| ==> Rank(es[i].kind) < k
  }

  predicate AtLeast(es: seq<Element>, k: nat) {
    forall i :: 0 <= i < |es| ==> k <= Rank(es[i].kind)
  }

  /** Appending a list that ranks at or above `k` to one that ranks below
      `k` keeps the ranking, and a bound both halves share. */
  lemma RankedAppend(a: seq<Element>, b: seq<Element>, k: nat, m: nat)
    requires Ranked(a) && Ranked(b) && Below(a, k) && AtLeast(b, k)
    ensures Ranked(a + b)
    ensures Below(a, m) && Below(b, m) ==> Below(a + b, m)
  {
    forall i, j | 0 <= i < j < |a + b| ensures Rank((a + b)[i].kind) < Rank((a + b)[j].kind) {
      if j < |a| {
      } else if i >= |a| {
        assert (a + b)[i] == b[i - |a|] && (a + b)[j] == b[j - |a|];
      } else {
        assert (a + b)[i] == a[i] && (a + b)[j] == b[j - |a|];
      }
    }
  }

  lemma FourHas(a: seq<Element>, b: seq<Element>, c: seq<Element>, d: seq<Element>, kind: string)
    ensures HasElement(a + b + c + d, kind) <==>
              HasElement(a, kind) || HasElement(b, kind) || HasElement(c, kind) || HasElement(d, kind)
  {
    HasElementAppend(a, b, kind);
    HasElementAppend(a + b, c, kind);
    HasElementAppend(a + b + c, d, kind);
  }

  lemma HasElementAppend(a: seq<Element>, b: seq<Element>, kind: string)
    ensures HasElement(a + b, kind) <==> HasElement(a, kind) || HasElement(b, kind)
  {
    if HasElement(a + b, kind) {
      var i :| 0 <= i < |a + b| && (a + b)[i].kind == kind;
      if i >= |a| {
        assert b[i - |a|].kind == kind;
      }
    }
    if HasElement(a, kind) {
      var i :| 0 <= i < |a| && a[i].kind == kind;
      assert (a + b)[i].kind == kind;
    }
    if HasElement(b, kind) {
      var i :| 0 <= i < |b| && b[i].kind == kind;
      assert (a + b)[|a| + i].kind == kind;
    }
  }

  /** `imageData?.layout`. */
  function SuggestedLayout(imageData: Option<ImageData>): Option<string> {
    if imageData.Some? then imageData.value.layout else None
  }

  /** The requirements the layout stage passes: the requested layout, else
      the suggested one, else 'standard'; the elements above; responsive. */
  function LayoutRequest(req: GenerationRequest, imageData: Option<ImageData>): (lr: LayoutRequirements)
    ensures lr.layoutType != ""
    ensures Truthy(RequestedLayout(req)) ==> lr.layoutType == RequestedLayout(req).value
    ensures !Truthy(RequestedLayout(req)) && Truthy(SuggestedLayout(imageData)) ==> lr.layoutType == SuggestedLayout(imageData).value
    ensures lr.elements == Some(DetermineLayoutElements(req.content, imageData))
    ensures ResponsiveOf(lr) && MaxWidthOf(lr) == DefaultMaxWidth && SpacingOf(lr) == DefaultSpacing
  {
    LayoutRequirements(OrElse(RequestedLayout(req), OrElse(SuggestedLayout(imageData), "standard")),
                       Some(DetermineLayoutElements(req.content, imageData)),
                       Some(Constraints(None, Some(true), None)))
  }

  /** Step 2. The layout agent runs exactly when a layout was requested or
      the images suggested one. Its type is then never empty, so it never
      fails, and the layout it reports is the type it was given. */
  function LayoutStage(la: Agent, req: GenerationRequest, imageData: Option<ImageData>, now: int)
    : (r: (Agent, Result<Option<LayoutResult>>))
    ensures r.1.Ok?
    ensures r.1.value.Some? <==> Truthy(RequestedLayout(req)) || Truthy(SuggestedLayout(imageData))
    ensures r.1.value.None? ==> r.0 == la
    ensures r.1.value.Some? ==>
      var lr := LayoutRequest(req, imageData);
      && r.0 == LogMessage(la, Message("layout_generation", lr.layoutType), now)
      && r.1.value.value.layout == lr.layoutType
      && r.1.value.value.css == GenerateLayoutCSS(lr)
      && r.1.value.value.meta == LayoutMeta(lr.layoutType, now, true)
  {
    if Truthy(RequestedLayout(req)) || Truthy(SuggestedLayout(imageData)) then
      var (la', res) := LayoutAgent.Process(la, LayoutRequest(req, imageData), now);
      match res
      case Err(e) => (la', Err(e))
      case Ok(layout) => (la', Ok(Some(layout)))
    else (la, Ok(None))
  }

  const LayoutHeader := "\n            /* Layout Styles */\n            "
  const GeneratedHeader := "\n\n            /* Generated Styles */\n            "
  const Trailer := "\n        "

  /** `combineCSS(generated, layout)`: the generated CSS alone when there is
      no layout CSS (missing or empty); otherwise the layout CSS first and
      the generated CSS after it, each under a comment heading. */
  function CombineCSS(generated: string, layoutCss: Option<string>): (css: string)
    ensures !Truthy(layoutCss) ==> css == generated
    ensures Truthy(layoutCss) ==>
      var l := layoutCss.value;
      var start := |LayoutHeader| + |l| + |GeneratedHeader|;
      && |css| == start + |generated| + |Trailer|
      && css[..|LayoutHeader|] == LayoutHeader
      && css[|LayoutHeader|..|LayoutHeader| + |l|] == l
      && css[start..start + |generated|] == generated
      && css[start + |generated|..] == Trailer
  {
    if !Truthy(layoutCss) then generated
    else
      var css := LayoutHeader + layoutCss.value + GeneratedHeader + generated + Trailer;
      Pieces5(LayoutHeader, layoutCss.value, GeneratedHeader, generated, Trailer);
      css
  }

  lemma Pieces5(a: string, b: string, c: string, d: string, e: string)
    ensures var s := a + b + c + d + e;
            var k := |a| + |b| + |c|;
            && |s| == k + |d| + |e|
            && s[..|a|] == a && s[|a|..|a| + |b|] == b && s[k..k + |d|] == d && s[k + |d|..] == e
  {
    var s := a + b + c + d + e;
    var k := |a| + |b| + |c|;
    assert s == (a + b + c) + d + e;
    assert s[k..k + |d|] == d;
  }

  /** The code stage's input: the request's text, the merged requirements,
      which are always present, and the image data. */
  function CodeState(req: GenerationRequest, imageData: Option<ImageData>, layout: Option<LayoutResult>)
    : (s: GenerationState<MergedRequirements>)
    ensures s.content == req.content && s.images == imageData
    ensures s.requirements.Some? && s.requirements.value.layout == layout
    ensures req.requirements.Some? ==>
      s.requirements.value.images == req.requirements.value.images && s.requirements.value.style == req.requirements.value.style
    ensures req.requirements.None? ==> s.requirements.value.images.None? && s.requirements.value.style.None?
  {
    var merged := if req.requirements.Some? then
                    MergedRequirements(req.requirements.value.images, req.requirements.value.style, layout)
                  else MergedRequirements(None, None, layout);
    GenerationState(req.content, Some(merged), imageData)
  }

  function LayoutCss(layout: Option<LayoutResult>): Option<string> {
    if layout.Some? then Some(layout.value.css) else None
  }

  function LayoutName(layout: Option<LayoutResult>): Option<string> {
    if layout.Some? then Some(layout.value.layout) else None
  }

  /** `generate(request)`: the three stages in order, each agent's log
      carried forward; the code agent's html and js, its CSS combined with
      the layout CSS, and its metadata with the layout name (default
      'standard'). Any failure becomes the generic generation error, and
      the agents that ran before it keep their logs. */
  function Generate(o: Orchestrator, req: GenerationRequest, sv: Services, now: int): (r: (Orchestrator, Result<GenerationResult>))
    ensures r.1.Err? ==> r.1 == Err(Config.GenerationError)
    ensures var (img', images) := ImageStage(o.image, req, sv.search, now);
            && r.0.image == img'
            && (images.Err? ==> r.0.code == o.code && r.0.layout == o.layout && r.1.Err?)
            && (images.Ok? ==>
                 var (lay', layout) := LayoutStage(o.layout, req, images.value, now);
                 var state := CodeState(req, images.value, layout.value);
                 var (code', code) := CodeAgent.Process(o.code, state, sv.serializers, sv.general, sv.chat, now);
                 && r.0 == Orchestrator(code', lay', img')
                 && (r.1.Ok? <==> code.Ok?)
                 && (code.Ok? ==>
                       && r.1.value.html == code.value.html
                       && r.1.value.js == code.value.js
                       && r.1.value.css == CombineCSS(code.value.css, LayoutCss(layout.value))
                       && r.1.value.meta.generatedAt == now
                       && r.1.value.meta.imageCount == |Processed(state)|
                       && r.1.value.meta.layout == OrElse(LayoutName(layout.value), "standard")))
    ensures r.1.Ok? ==> r.1.value.meta.layout != ""
  {
    var (img', images) := ImageStage(o.image, req, sv.search, now);
    if images.Err? then (o.(image := img'), Err(Config.GenerationError))
    else
      var (lay', layout) := LayoutStage(o.layout, req, images.value, now);
      if layout.Err? then (o.(image := img', layout := lay'), Err(Config.GenerationError))
      else
        var state := CodeState(req, images.value, layout.value);
        var (code', code) := CodeAgent.Process(o.code, state, sv.serializers, sv.general, sv.chat, now);
        var o' := Orchestrator(code', lay', img');
        match code
        case Err(_) => (o', Err(Config.GenerationError))
        case Ok(res) =>
          (o', Ok(GenerationResult(res.html, CombineCSS(res.css, LayoutCss(layout.value)), res.js,
                                   res.meta.(layout := OrElse(LayoutName(layout.value), "standard")))))
  }

  /** Without a non-empty image query the search is never consulted: any two
      search services give the same outcome, and the image agent logs nothing. */
  lemma NoQueryNoSearch(o: Orchestrator, req: GenerationRequest, sv: Services, other: ImageAgent.Search, now: int)
    requires !Truthy(ImageQuery(req))
    ensures Generate(o, req, sv, now) == Generate(o, req, sv.(search := other), now)
    ensures Generate(o, req, sv, now).0.image == o.image
  {
  }

  /** An orchestrator without an image-search key fails every request that
      asks for images, before the layout and code agents run. */
  lemma NoKeyFailsImageRequests(o: Orchestrator, req: GenerationRequest, sv: Services, now: int)
    requires o.image.apiKey == "" && Truthy(ImageQuery(req))
    ensures Generate(o, req, sv, now).1 == Err(Config.GenerationError)
    ensures Generate(o, req, sv, now).0.code == o.code && Generate(o, req, sv, now).0.layout == o.layout
  {
  }

  /** Neither a layout nor an image query: the layout agent does not run,
      the CSS is the code agent's own, and the layout reported is 'standard'. */
  lemma NoLayoutStage(o: Orchestrator, req: GenerationRequest, sv: Services, now: int)
    requires !Truthy(RequestedLayout(req)) && !Truthy(ImageQuery(req))
    ensures Generate(o, req, sv, now).0.layout == o.layout
    ensures var state := CodeState(req, None, None);
            var code := CodeAgent.Process(o.code, state, sv.serializers, sv.general, sv.chat, now).1;
            var r := Generate(o, req, sv, now).1;
            r.Ok? ==> r.value.css == code.value.css && r.value.meta.layout == "standard"
  {
  }

  /** A requested layout names the result and selects the CSS block by its
      raw name; the images' suggestion is then ignored. */
  lemma RequestedLayoutWins(la: Agent, req: GenerationRequest, imageData: Option<ImageData>, now: int)
    requires Truthy(RequestedLayout(req))
    ensures var r := LayoutStage(la, req, imageData, now).1;
            && r.value.Some?
            && r.value.value.layout == RequestedLayout(req).value
            && r.value.value.css[|r.value.value.css| - |BlockCss(BlockFor(r.value.value.layout))|..]
                 == BlockCss(BlockFor(RequestedLayout(req).value))
  {
  }

  /** With no layout requested, a layout suggested by the images reaches the
      layout agent as its type; since no suggestion is 'landing',
      'dashboard' or 'grid', the CSS always ends with the standard block. */
  lemma SuggestedLayoutGetsStandardBlock(la: Agent, req: GenerationRequest, images: seq<ImageAgent.ProcessedImage>, now: int)
    requires !Truthy(RequestedLayout(req)) && |images| > 0
    ensures var data := Some(ImageData(Some(images), Some(ImageAgent.SuggestImageLayout(images))));
            var r := LayoutStage(la, req, data, now).1;
            && r.value.Some?
            && r.value.value.layout == ImageAgent.SuggestImageLayout(images)
            && r.value.value.css[|r.value.value.css| - |StandardCss|..] == StandardCss
  {
    ImageAgent.SuggestionNonEmpty(images);
    var s := ImageAgent.SuggestImageLayout(images);
    assert s in {"hero", "single", "grid-small", "grid-medium", "gallery"};
    assert BlockFor(s) == StandardBlock;
  }

  /** The code agent is always handed a requirements object, so its prompt
      always carries a requirements section. */
  lemma RequirementsAlwaysSent(req: GenerationRequest, imageData: Option<ImageData>, layout: Option<LayoutResult>,
                               ser: Serializers<MergedRequirements>)
    ensures RequirementsSection(CodeState(req, imageData, layout), ser) != ""
  {
  }
}

=== FILE: rate_limiter.dfy ===
/** The sliding-window request limiter: per key, the timestamps of accepted
    requests; a request is accepted when fewer than `maxRequests` of them
    are younger than `window` milliseconds. */
module RateLimiter {
  import opened Results
  import Config

  datatype Limiter = Limiter(requests: map<string, seq<int>>, maxRequests: int, window: int)

  /** The message `checkLimit` throws; it is its own literal, not the
      configurable rate-limit message. */
  const ExceededMessage := "Rate limit exceeded. Please wait before trying again."

  const DefaultKey := "default"

  /** The limiter the program creates: no history, 50 requests per 60 s. */
  function New(): (l: Limiter)
    ensures l.requests == map[] && l.maxRequests == 50 && l.window == 60000
  {
    Limiter(map[], Config.MaxRequests, Config.RateWindowMs)
  }

  /** A timestamp still counts at `now` when it is strictly younger than the window. */
  predicate InWindow(t: int, now: int, window: int) {
    now - t < window
  }

  /** `timestamps.filter(t => now - t < window)`: the in-window timestamps,
      in their original order, each as often as it was stored. */
  function Recent(ts: seq<int>, now: int, window: int): (r: seq<int>)
    ensures |r| <= |ts|
    ensures forall i :: 0 <= i < |r| ==> InWindow(r[i], now, window)
    ensures forall t :: t in r <==> t in ts && InWindow(t, now, window)
    ensures forall t :: multiset(r)[t] == if InWindow(t, now, window) then multiset(ts)[t] else 0
    ensures IsSubsequence(r, ts)
    decreases |ts|
  {
    if |ts| == 0 then []
    else
      var rest := Recent(ts[1..], now, window);
      assert ts == [ts[0]] + ts[1..];
      assert multiset(ts) == multiset{ts[0]} + multiset(ts[1..]);
      if InWindow(ts[0], now, window) then
        assert multiset([ts[0]] + rest) == multiset{ts[0]} + multiset(rest);
        assert ([ts[0]] + rest)[1..] == rest;
        [ts[0]] + rest
      else rest
  }

  /** `a` is `b` with some elements left out, order kept. */
  predicate IsSubsequence(a: seq<int>, b: seq<int>)
    decreases |b|
  {
    if |a| == 0 then true
    else if |b| == 0 then false
    else if a[0] == b[0] then IsSubsequence(a[1..], b[1..])
    else IsSubsequence(a, b[1..])
  }

  /** The stored timestamps for `key`, empty when there are none. */
  function Stored(l: Limiter, key: string): seq<int> {
    if key in l.requests then l.requests[key] else []
  }

  /** `checkLimit(key)` at `now`. Rejected (the error, limiter untouched)
      when `maxRequests` or more stored timestamps are in the window;
      otherwise accepted, storing the in-window timestamps followed by
      `now` for `key` and leaving every other key alone. */
  function CheckLimit(l: Limiter, key: string, now: int): (r: Result<Limiter>)
    ensures r.Err? <==> |Recent(Stored(l, key), now, l.window)| >= l.maxRequests
    ensures r.Err? ==> r.message == ExceededMessage
    ensures r.Ok? ==> r.value.requests == l.requests[key := Recent(Stored(l, key), now, l.window) + [now]]
    ensures r.Ok? ==> r.value.maxRequests == l.maxRequests && r.value.window == l.window
    ensures r.Ok? ==> |r.value.requests[key]| <= l.maxRequests
    ensures r.Ok? ==> forall k :: k != key ==> Stored(r.value, k) == Stored(l, k)
  {
    var valid := Recent(Stored(l, key), now, l.window);
    if |valid| >= l.maxRequests then Err(ExceededMessage)
    else Ok(l.(requests := l.requests[key := valid + [now]]))
  }

  /** `canMakeRequest()`: `checkLimit` on the one key the program uses. It
      never answers "no": it accepts or it fails. */
  function CanMakeRequest(l: Limiter, now: int): (r: Result<Limiter>)
    ensures r.Err? <==> |Recent(Stored(l, DefaultKey), now, l.window)| >= l.maxRequests
    ensures r.Ok? ==> r.value.requests == l.requests[DefaultKey := Recent(Stored(l, DefaultKey), now, l.window) + [now]]
    ensures r.Ok? ==> r.value.maxRequests == l.maxRequests && r.value.window == l.window
    ensures r.Ok? ==> |Stored(r.value, DefaultKey)| <= l.maxRequests
    ensures r.Err? ==> r.message == ExceededMessage
  {
    CheckLimit(l, DefaultKey, now)
  }

  predicate Sorted(ts: seq<int>) {
    forall i, j :: 0 <= i < j < |ts| ==> ts[i] <= ts[j]
  }

  /** Filtering keeps a sorted list sorted. */
  lemma {:induction false} RecentSorted(ts: seq<int>, now: int, window: int)
    requires Sorted(ts)
    ensures Sorted(Recent(ts, now, window))
    decreases |ts|
  {
    if |ts| > 0 {
      RecentSorted(ts[1..], now, window);
      var rest := Recent(ts[1..], now, window);
      forall t | t in rest ensures ts[0] <= t {
        var k :| 0 <= k < |ts[1..]| && ts[1..][k] == t;
        assert ts[k + 1] == t;
      }
      if InWindow(ts[0], now, window) {
        var r := [ts[0]] + rest;
        assert Recent(ts, now, window) == r;
        forall i, j | 0 <= i < j < |r| ensures r[i] <= r[j] {
          if i == 0 {
            assert r[j] == rest[j - 1] && r[j] in rest;
          } else {
            assert r[i] == rest[i - 1] && r[j] == rest[j - 1];
          }
        }
      } else {
        assert Recent(ts, now, window) == rest;
      }
    }
  }

  /** When requests arrive with non-decreasing times, each key's stored
      list stays sorted. */
  lemma CheckLimitKeepsSorted(l: Limiter, key: string, now: int)
    requires Sorted(Stored(l, key))
    requires forall i :: 0 <= i < |Stored(l, key)| ==> Stored(l, key)[i] <= now
    requires CheckLimit(l, key, now).Ok?
    ensures Sorted(Stored(CheckLimit(l, key, now).value, key))
  {
    var ts := Stored(l, key);
    RecentSorted(ts, now, l.window);
    var r := Recent(ts, now, l.window);
    forall i | 0 <= i < |r| ensures r[i] <= now {
      assert r[i] in ts;
    }
    assert Stored(CheckLimit(l, key, now).value, key) == r + [now];
  }

  /** After `maxRequests` accepted calls for a key within one window, the
      next call in that window is rejected. */
  lemma FullWindowRejects(l: Limiter, key: string, now: int)
    requires |Stored(l, key)| >= l.maxRequests
    requires forall i :: 0 <= i < |Stored(l, key)| ==> InWindow(Stored(l, key)[i], now, l.window)
    ensures CheckLimit(l, key, now).Err?
  {
    RecentKeepsAll(Stored(l, key), now, l.window);
  }

  /** Once every stored timestamp has left the window, a call is accepted
      again (given a positive limit) and the key's history restarts at `now`. */
  lemma ElapsedWindowAccepts(l: Limiter, key: string, now: int)
    requires l.maxRequests > 0
    requires forall i :: 0 <= i < |Stored(l, key)| ==> !InWindow(Stored(l, key)[i], now, l.window)
    ensures CheckLimit(l, key, now).Ok?
    ensures Stored(CheckLimit(l, key, now).value, key) == [now]
  {
    var r := Recent(Stored(l, key), now, l.window);
    assert forall t :: t in r ==> t in Stored(l, key);
  }

  lemma {:induction false} RecentKeepsAll(ts: seq<int>, now: int, window: int)
    requires forall i :: 0 <= i < |ts| ==> InWindow(ts[i], now, window)
    ensures Recent(ts, now, window) == ts
    decreases |ts|
  {
    if |ts| > 0 {
      RecentKeepsAll(ts[1..], now, window);
      assert ts == [ts[0]] + ts[1..];
    }
  }
}

=== FILE: results.dfy ===
/** Failure-carrying values shared by every module of the model.

    The program signals failure by throwing `new Error(message)`; the model
    returns `Err(message)` instead, and a JavaScript `undefined` or absent
    optional property becomes `None`. */
module Results {

  datatype Option<+T> = None | Some(value: T) {

    /** The value, or `default` when absent (JavaScript `x ?? default`). */
    function GetOr(default: T): T {
      match this
      case Some(v) => v
      case None => default
    }
  }

  /** The outcome of an operation that may throw. */
  datatype Result<+T> = Ok(value: T) | Err(message: string)

  /** JavaScript truthiness of an optional string: present and non-empty. */
  predicate Truthy(s: Option<string>) {
    s.Some? && s.value != ""
  }

  /** JavaScript `s || fallback` for an optional string. */
  function OrElse(s: Option<string>, fallback: string): (r: string)
    ensures Truthy(s) ==> r == s.value
    ensures !Truthy(s) ==> r == fallback
  {
    if Truthy(s) then s.value else fallback
  }

  /** JavaScript `n || fallback` for an optional number: absent and 0 are falsy. */
  function NumOr(n: Option<int>, fallback: int): (r: int)
    ensures n.Some? && n.value != 0 ==> r == n.value
    ensures n.None? || n.value == 0 ==> r == fallback
  {
    if n.Some? && n.value != 0 then n.value else fallback
  }
}

=== FILE: text.dfy ===
/** The JavaScript string operations the program relies on: `trim`,
    `toLowerCase`, `includes`, `startsWith`, `indexOf`, `split` on one
    character and `join`, restricted to ASCII letters and ASCII white space.

    `Tidy` is the one pipeline both `formatCode` and `generateAltText` use:
    split on a separator, trim each piece, drop the empty pieces, join the
    rest with a glue string. */
module Text {
  import opened Results

  // ---------------------------------------------------------------------
  // White space and trimming
  // ---------------------------------------------------------------------

  /** ASCII white space as `String.prototype.trim` sees it. */
  predicate IsSpace(c: char) {
    c == ' ' || c == '\t' || c == '\n' || c == '\r' || c == '\U{000B}' || c == '\U{000C}'
  }

  predicate AllSpace(s: string) {
    forall i :: 0 <= i < |s| ==> IsSpace(s[i])
  }

  /** Neither starts nor ends with white space. */
  predicate Trimmed(s: string) {
    s == [] || (!IsSpace(s[0]) && !IsSpace(s[|s| - 1]))
  }

  /** `s` with its leading white space removed: a suffix of `s`. */
  function TrimStart(s: string): (r: string)
    ensures |r| <= |s| && r == s[|s| - |r|..]
    ensures AllSpace(s[..|s| - |r|])
    ensures r == [] || !IsSpace(r[0])
  {
    if |s| == 0 then s
    else if IsSpace(s[0]) then TrimStart(s[1..])
    else s
  }

  /** `s` with its trailing white space removed: a prefix of `s`. */
  function TrimEnd(s: string): (r: string)
    ensures |r| <= |s| && r == s[..|r|]
    ensures AllSpace(s[|r|..])
    ensures r == [] || !IsSpace(r[|r| - 1])
  {
    if |s| == 0 then s
    else if IsSpace(s[|s| - 1]) then
      var r := TrimEnd(s[..|s| - 1]);
      assert s[..|s| - 1][..|r|] == s[..|r|];
      assert s[|r|..] == s[..|s| - 1][|r|..] + [s[|s| - 1]];
      r
    else s
  }

  /** `String.prototype.trim`. */
  function Trim(s: string): (r: string)
    ensures Trimmed(r)
    ensures |r| <= |s|
  {
    TrimEnd(TrimStart(s))
  }

  /** `s` is white space, then `r` from index `i`, then white space. */
  predicate PaddedAt(s: string, i: int, r: string) {
    0 <= i <= |s| - |r| && AllSpace(s[..i]) && s[i..i + |r|] == r && AllSpace(s[i + |r|..])
  }

  /** Existence half of `Trim`'s characterisation: the input is white space,
      then the result, then white space. */
  lemma TrimInfix(s: string)
    ensures exists i :: PaddedAt(s, i, Trim(s))
  {
    var a := TrimStart(s);
    var r := TrimEnd(a);
    var i := |s| - |a|;
    assert a == s[i..];
    assert s[i..i + |r|] == a[..|r|];
    assert s[i + |r|..] == a[|r|..];
    assert r == Trim(s);
    assert PaddedAt(s, i, r);
  }

  /** Uniqueness half of `Trim`'s characterisation: padding a trimmed string
      with white space on both sides and trimming gives it back. */
  lemma {:induction false} TrimPadding(w: string, r: string, w': string)
    requires AllSpace(w) && AllSpace(w') && Trimmed(r)
    ensures Trim(w + r + w') == r
  {
    if r == [] {
      assert w + r + w' == (w + w') + [];
      assert AllSpace(w + w');
      TrimStartPadding(w + w', []);
    } else {
      assert w + r + w' == w + (r + w');
      TrimStartPadding(w, r + w');
      TrimEndPadding(r, w');
    }
  }

  lemma {:induction false} TrimStartPadding(w: string, t: string)
    requires AllSpace(w)
    requires t == [] || !IsSpace(t[0])
    ensures TrimStart(w + t) == t
  {
    if |w| == 0 {
      assert w + t == t;
    } else {
      assert (w + t)[1..] == w[1..] + t;
      TrimStartPadding(w[1..], t);
    }
  }

  lemma {:induction false} TrimEndPadding(t: string, w: string)
    requires AllSpace(w)
    requires t != [] && !IsSpace(t[|t| - 1])
    ensures TrimEnd(t + w) == t
  {
    if |w| == 0 {
      assert t + w == t;
    } else {
      assert (t + w)[..|t + w| - 1] == t + w[..|w| - 1];
      TrimEndPadding(t, w[..|w| - 1]);
    }
  }

  /** Trimming a trimmed string changes nothing. */
  lemma TrimTrimmed(s: string)
    requires Trimmed(s)
    ensures Trim(s) == s
  {
    TrimPadding([], s, []);
    assert [] + s + [] == s;
  }

  /** Trimming never introduces a character that was not there. */
  lemma TrimChars(s: string, c: char)
    requires c !in s
    ensures c !in Trim(s)
  {
    var a := TrimStart(s);
    assert forall k :: 0 <= k < |a| ==> a[k] == s[|s| - |a| + k];
    var r := TrimEnd(a);
    assert forall k :: 0 <= k < |r| ==> r[k] == a[k];
  }

  // ---------------------------------------------------------------------
  // Lower case, prefixes and substrings
  // ---------------------------------------------------------------------

  function LowerChar(c: char): char {
    if 'A' <= c <= 'Z' then (c as int + 32) as char else c
  }

  /** `String.prototype.toLowerCase` on ASCII letters. */
  function Lower(s: string): (r: string)
    ensures |r| == |s|
    ensures forall i :: 0 <= i < |s| ==> r[i] == LowerChar(s[i])
  {
    seq(|s|, i requires 0 <= i < |s| => LowerChar(s[i]))
  }

  /** `s.startsWith(p)`. */
  predicate StartsWith(s: string, p: string) {
    |p| <= |s| && s[..|p|] == p
  }

  /** `sub` occurs in `s` at index `i`. */
  predicate Occurs(s: string, sub: string, i: int) {
    0 <= i && i + |sub| <= |s| && s[i..i + |sub|] == sub
  }

  /** `i` is the first index at or after `from` where `sub` occurs. */
  predicate FirstFrom(s: string, sub: string, from: int, i: int) {
    from <= i && Occurs(s, sub, i) && forall k :: from <= k < i ==> !Occurs(s, sub, k)
  }

  /** `s.indexOf(sub, from)`, with `None` for -1. */
  function IndexOf(s: string, sub: string, from: nat): (r: Option<nat>)
    ensures r.Some? ==> FirstFrom(s, sub, from, r.value)
    ensures r.None? ==> forall k :: from <= k ==> !Occurs(s, sub, k)
    decreases |s| - from
  {
    if from + |sub| > |s| then None
    else if s[from..from + |sub|] == sub then Some(from)
    else IndexOf(s, sub, from + 1)
  }

  /** `s.includes(sub)`. */
  predicate Contains(s: string, sub: string) {
    IndexOf(s, sub, 0).Some?
  }

  /** `includes` holds exactly when the substring occurs somewhere. */
  lemma ContainsIff(s: string, sub: string)
    ensures Contains(s, sub) <==> exists k :: Occurs(s, sub, k)
  {
    if exists k :: Occurs(s, sub, k) {
      var k :| Occurs(s, sub, k);
      assert 0 <= k;
    }
  }

  /** Case-insensitive `includes`, lowering only the haystack as the program
      does (every needle it uses is already lower case). */
  predicate ContainsIgnoringCase(s: string, sub: string) {
    Contains(Lower(s), sub)
  }

  // ---------------------------------------------------------------------
  // Split and join
  // ---------------------------------------------------------------------

  /** `parts.join(glue)`. */
  function Join(parts: seq<string>, glue: string): string
    decreases |parts|
  {
    if |parts| == 0 then ""
    else if |parts| == 1 then parts[0]
    else parts[0] + glue + Join(parts[1..], glue)
  }

  /** `s.split(sep)` for a one-character separator: at least one piece, no
      piece contains the separator, and joining the pieces back with the
      separator gives `s`. */
  function Split(s: string, sep: char): (parts: seq<string>)
    ensures |parts| >= 1
    ensures forall i :: 0 <= i < |parts| ==> sep !in parts[i]
    ensures Join(parts, [sep]) == s
    decreases |s|
  {
    if |s| == 0 then [""]
    else
      var rest := Split(s[1..], sep);
      if s[0] == sep then
        assert ([""] + rest)[1..] == rest;
        [""] + rest
      else
        var parts := [[s[0]] + rest[0]] + rest[1..];
        assert parts[1..] == rest[1..];
        assert s == [s[0]] + s[1..];
        parts
  }

  /** Splitting a join of separator-free pieces gives the pieces back. */
  lemma {:induction false} SplitJoin(parts: seq<string>, sep: char)
    requires |parts| >= 1
    requires forall i :: 0 <= i < |parts| ==> sep !in parts[i]
    ensures Split(Join(parts, [sep]), sep) == parts
    decreases |parts|
  {
    if |parts| == 1 {
      SplitFree(parts[0], sep);
    } else {
      SplitJoin(parts[1..], sep);
      var tail := Join(parts[1..], [sep]);
      assert Join(parts, [sep]) == parts[0] + ([sep] + tail);
      SplitFreePrefix(parts[0], [sep] + tail, sep);
      assert ([sep] + tail)[1..] == tail;
      assert Split([sep] + tail, sep) == [""] + parts[1..];
      assert ([""] + parts[1..])[1..] == parts[1..];
      assert parts[0] + "" == parts[0];
      assert parts == [parts[0]] + parts[1..];
    }
  }

  /** A separator-free string splits into itself. */
  lemma {:induction false} SplitFree(a: string, sep: char)
    requires sep !in a
    ensures Split(a, sep) == [a]
    decreases |a|
  {
    if |a| > 0 {
      SplitFree(a[1..], sep);
      assert a == [a[0]] + a[1..];
    }
  }

  /** A separator-free prefix glues onto the first piece of what follows. */
  lemma {:induction false} SplitFreePrefix(a: string, t: string, sep: char)
    requires sep !in a
    ensures Split(a + t, sep) == [a + Split(t, sep)[0]] + Split(t, sep)[1..]
    decreases |a|
  {
    if |a| == 0 {
      assert a == [];
      assert a + t == t;
      assert a + Split(t, sep)[0] == Split(t, sep)[0];
      assert Split(t, sep) == [Split(t, sep)[0]] + Split(t, sep)[1..];
    } else {
      assert (a + t)[1..] == a[1..] + t;
      assert (a + t)[0] == a[0];
      SplitFreePrefix(a[1..], t, sep);
      assert [a[0]] + (a[1..] + Split(t, sep)[0]) == a + Split(t, sep)[0];
    }
  }

  // ---------------------------------------------------------------------
  // Tidy: split, trim, drop empty, join
  // ---------------------------------------------------------------------

  /** `parts.map(p => p.trim()).filter(p => p.length > 0)`: the non-blank
      pieces, trimmed, in their original order. */
  function KeepNonBlank(parts: seq<string>): (r: seq<string>)
    ensures |r| <= |parts|
    ensures forall i :: 0 <= i < |r| ==> r[i] != "" && Trimmed(r[i])
    decreases |parts|
  {
    if |parts| == 0 then []
    else
      var t := Trim(parts[0]);
      if t == "" then KeepNonBlank(parts[1..]) else [t] + KeepNonBlank(parts[1..])
  }

  /** Trimming removes no separator it did not find: kept pieces of
      separator-free pieces are separator-free. */
  lemma {:induction false} KeepNonBlankChars(parts: seq<string>, sep: char)
    requires forall i :: 0 <= i < |parts| ==> sep !in parts[i]
    ensures forall i :: 0 <= i < |KeepNonBlank(parts)| ==> sep !in KeepNonBlank(parts)[i]
    decreases |parts|
  {
    if |parts| > 0 {
      TrimChars(parts[0], sep);
      KeepNonBlankChars(parts[1..], sep);
    }
  }

  /** Split on `sep`, trim, drop blanks, join with `sep` followed by `pad`. */
  function Tidy(s: string, sep: char, pad: string): string {
    Join(KeepNonBlank(Split(s, sep)), [sep] + pad)
  }

  /** The pieces `Tidy` keeps. */
  function TidyPieces(s: string, sep: char): seq<string> {
    KeepNonBlank(Split(s, sep))
  }

  /** `pieces` with `pad` put in front of every piece but the first. */
  function PadTail(pieces: seq<string>, pad: string): (r: seq<string>)
    ensures |r| == |pieces|
    ensures |r| > 0 ==> r[0] == pieces[0]
    ensures forall i :: 1 <= i < |r| ==> r[i] == pad + pieces[i]
  {
    if |pieces| == 0 then []
    else [pieces[0]] + seq(|pieces| - 1, i requires 0 <= i < |pieces| - 1 => pad + pieces[i + 1])
  }

  /** Joining with `sep + pad` is joining the padded pieces with `sep`. */
  lemma {:induction false} JoinPadTail(pieces: seq<string>, sep: char, pad: string)
    requires |pieces| >= 1
    ensures Join(pieces, [sep] + pad) == Join(PadTail(pieces, pad), [sep])
    decreases |pieces|
  {
    if |pieces| > 1 {
      var p := PadTail(pieces, pad);
      var q := PadTail(pieces[1..], pad);
      JoinPadTail(pieces[1..], sep, pad);
      assert p[1..] == [pad + q[0]] + q[1..];
      JoinPadFirst(q, [sep], pad);
      calc {
        Join(p, [sep]);
        p[0] + [sep] + Join(p[1..], [sep]);
        pieces[0] + [sep] + (pad + Join(q, [sep]));
        pieces[0] + ([sep] + pad) + Join(pieces[1..], [sep] + pad);
        Join(pieces, [sep] + pad);
      }
    }
  }

  /** Padding the first part pads the whole join. */
  lemma JoinPadFirst(q: seq<string>, glue: string, pad: string)
    requires |q| >= 1
    ensures Join([pad + q[0]] + q[1..], glue) == pad + Join(q, glue)
  {
    if |q| > 1 {
      assert ([pad + q[0]] + q[1..])[1..] == q[1..];
    }
  }

  /** The output of `Tidy` splits back into exactly the kept pieces (with
      the pad in front of all but the first): no piece is lost, merged or
      reordered. */
  lemma TidySplit(s: string, sep: char, pad: string)
    requires AllSpace(pad) && sep !in pad
    requires TidyPieces(s, sep) != []
    ensures Split(Tidy(s, sep, pad), sep) == PadTail(TidyPieces(s, sep), pad)
  {
    var ks := TidyPieces(s, sep);
    KeepNonBlankChars(Split(s, sep), sep);
    JoinPadTail(ks, sep, pad);
    var p := PadTail(ks, pad);
    forall i | 0 <= i < |p| ensures sep !in p[i] {
      if i > 0 {
        assert p[i] == pad + ks[i];
      }
    }
    SplitJoin(p, sep);
  }

  /** Tidying is idempotent when the pad is white space without the
      separator: a tidied string is its own tidy form. */
  lemma TidyIdempotent(s: string, sep: char, pad: string)
    requires AllSpace(pad) && sep !in pad
    ensures Tidy(Tidy(s, sep, pad), sep, pad) == Tidy(s, sep, pad)
  {
    var ks := TidyPieces(s, sep);
    if ks == [] {
      assert Tidy(s, sep, pad) == "";
      assert Split("", sep) == [""];
      assert KeepNonBlank([""]) == [];
    } else {
      TidySplit(s, sep, pad);
      var p := PadTail(ks, pad);
      assert KeepNonBlank(p) == ks by { KeepPadded(ks, pad); }
    }
  }

  /** Trimming padded non-blank trimmed pieces strips the pad again. */
  lemma {:induction false} KeepPadded(ks: seq<string>, pad: string)
    requires |ks| >= 1 && AllSpace(pad)
    requires forall i :: 0 <= i < |ks| ==> ks[i] != "" && Trimmed(ks[i])
    ensures KeepNonBlank(PadTail(ks, pad)) == ks
  {
    var p := PadTail(ks, pad);
    forall i | 0 <= i < |p| ensures Trim(p[i]) == ks[i] {
      if i == 0 {
        TrimTrimmed(ks[0]);
      } else {
        TrimPadding(pad, ks[i], []);
        assert pad + ks[i] + [] == p[i];
      }
    }
    KeepTrimsTo(p, ks);
  }

  lemma {:induction false} KeepTrimsTo(p: seq<string>, ks: seq<string>)
    requires |p| == |ks|
    requires forall i :: 0 <= i < |p| ==> Trim(p[i]) == ks[i] && ks[i] != ""
    ensures KeepNonBlank(p) == ks
    decreases |p|
  {
    if |p| > 0 {
      KeepTrimsTo(p[1..], ks[1..]);
      assert ks == [ks[0]] + ks[1..];
    }
  }
}

=== FILE: version_control.dfy ===
/** The linear version history behind the version panel: an append-only list
    of versions with a pointer to the current one. */
module VersionControl {
  import opened Results

  datatype Version = Version(id: int, timestamp: int, content: string, description: string)

  /** `versions` in insertion order and `current`, the id of the version on show. */
  datatype History = History(versions: seq<Version>, current: int)

  const DefaultDescription := "Changes made"

  /** What every reachable history satisfies: each version's id is its
      position, and the pointer is -1 exactly when the history is empty and
      a valid position otherwise. */
  predicate Valid(h: History) {
    && (forall i :: 0 <= i < |h.versions| ==> h.versions[i].id == i)
    && (h.current == -1 <==> |h.versions| == 0)
    && (|h.versions| > 0 ==> 0 <= h.current < |h.versions|)
  }

  /** A new manager: no versions, pointer -1. */
  function Empty(): (h: History)
    ensures Valid(h)
    ensures |h.versions| == 0 && h.current == -1
  {
    History([], -1)
  }

  /** `addVersion(content, description)` at time `now`; an absent
      description defaults to "Changes made". */
  function AddVersion(h: History, content: string, description: Option<string>, now: int): (h': History)
    ensures |h'.versions| == |h.versions| + 1
    ensures h'.versions[..|h.versions|] == h.versions
    ensures h'.versions[|h.versions|] == Version(|h.versions|, now, content, description.GetOr(DefaultDescription))
    ensures h'.current == |h'.versions| - 1
    ensures Valid(h) ==> Valid(h')
  {
    var v := Version(|h.versions|, now, content, description.GetOr(DefaultDescription));
    History(h.versions + [v], |h.versions|)
  }

  /** `versions.find(v => v.id === id)`: the position of the first version
      carrying `id`. */
  function Find(versions: seq<Version>, id: int): (r: Option<nat>)
    ensures r.Some? ==> r.value < |versions| && versions[r.value].id == id
    ensures r.Some? ==> forall j :: 0 <= j < r.value ==> versions[j].id != id
    ensures r.None? ==> forall j :: 0 <= j < |versions| ==> versions[j].id != id
    decreases |versions|
  {
    if |versions| == 0 then None
    else if versions[0].id == id then Some(0)
    else
      match Find(versions[1..], id)
      case None => None
      case Some(k) => Some(k + 1)
  }

  /** `restore(id)`: the stored content and a history pointing at `id` when
      a version has that id; otherwise `None` and the history unchanged. */
  function Restore(h: History, id: int): (r: (History, Option<string>))
    ensures r.1.None? ==> r.0 == h
    ensures r.1.Some? ==> r.0 == h.(current := id)
    ensures r.1.Some? <==> exists j :: 0 <= j < |h.versions| && h.versions[j].id == id
    ensures r.1.Some? ==> (exists j :: 0 <= j < |h.versions| && h.versions[j].id == id &&
                            r.1.value == h.versions[j].content && forall k :: 0 <= k < j ==> h.versions[k].id != id)
  {
    match Find(h.versions, id)
    case None => (h, None)
    case Some(k) => (h.(current := id), Some(h.versions[k].content))
  }

  /** In a valid history, restoring succeeds exactly for the ids
      0 .. length-1, returns that version's content, and keeps the history
      valid. */
  lemma RestoreValid(h: History, id: int)
    requires Valid(h)
    ensures Restore(h, id).1.Some? <==> 0 <= id < |h.versions|
    ensures 0 <= id < |h.versions| ==> Restore(h, id).1 == Some(h.versions[id].content)
    ensures Restore(h, id).0.versions == h.versions
    ensures Valid(Restore(h, id).0)
  {
    if 0 <= id < |h.versions| {
      assert h.versions[id].id == id;
    }
  }

  /** The ids of a valid history are strictly increasing, hence unique. */
  lemma IdsIncreasing(h: History, i: int, j: int)
    requires Valid(h)
    requires 0 <= i < j < |h.versions|
    ensures h.versions[i].id < h.versions[j].id
  {
  }

  /** `getCurrentVersion()` after any series of additions and restores from
      a fresh manager is -1 or a valid position. */
  lemma {:induction false} ReplayValid(ops: seq<Op>)
    ensures Valid(Replay(Empty(), ops))
    decreases |ops|
  {
    if |ops| > 0 {
      ReplayValid(ops[..|ops| - 1]);
      var h := Replay(Empty(), ops[..|ops| - 1]);
      match ops[|ops| - 1]
      case Add(c, d, t) =>
      case RestoreTo(id) => RestoreValid(h, id);
    }
  }

  /** The calls the version panel makes. */
  datatype Op = Add(content: string, description: Option<string>, now: int) | RestoreTo(id: int)

  function Apply(h: History, op: Op): History {
    match op
    case Add(c, d, t) => AddVersion(h, c, d, t)
    case RestoreTo(id) => Restore(h, id).0
  }

  function Replay(h: History, ops: seq<Op>): History
    decreases |ops|
  {
    if |ops| == 0 then h else Apply(Replay(h, ops[..|ops| - 1]), ops[|ops| - 1])
  }
}
